=== FILE: README.md ===
# Sleep-light hub: a Dafny model

This project models the Node.js server of the smart sleep light. The server sits between ESP32 sleep-sensing lamps and browser dashboards:

- Devices connect over WebSocket, announce themselves and stream batches of sleep samples.
- The server keeps three in-memory maps keyed by device id: connected devices, sleep sessions and alarm settings.
- It summarises each batch and pushes updates to every browser (every WebSocket that is not a device).
- It schedules alarms on 90-minute sleep-cycle boundaries and drives the lamp's dimmer.

Two revisions are modelled:

- **The canonical revision, `server.js`.** Alarms are set over HTTP and scheduled when the device reports `sleep_detected`, counting whole cycles from the detected sleep start. The device receives a relative `delay_ms`. When the alarm triggers, the lamp runs the dimming pattern stored with the alarm.
- **The earlier revision, `RaspberryPi_Server/server.js`.** The alarm is scheduled as soon as it is set. The device receives an absolute `alarm_time`. The analyzer keeps an eight-hour history. HTTP routes set brightness and a sunrise effect.

Module layout, following the program's structure:

| module | file | what it holds |
|---|---|---|
| `Wrappers` | wrappers.dfy | `Option` |
| `OrderedMap` | ordered_map.dfy | a JavaScript `Map` as an insertion-ordered association list |
| `Registry` | registry.dfy | `wss.clients`, `connectedDevices`, observer fan-out, device send, close |
| `Protocol` | protocol.dfy | device messages, device commands, browser events, HTTP replies |
| `Hub` | hub.dfy | the state and the handlers both revisions share |
| `Scheduler` | scheduler.dfy | the canonical cycle scheduler |
| `Analyzer` | analyzer.dfy | the canonical batch summary |
| `Orchestrator` | orchestrator.dfy | the canonical device-message handlers and dispatcher |
| `Api` | api.dfy | the canonical HTTP routes for alarms and the dimmer |
| `LegacyAnalyzer` | legacy_analyzer.dfy | the earlier `SleepAnalyzer`, its history and its scheduler |
| `LegacyHub` | legacy_hub.dfy | the earlier handlers, dispatcher and HTTP routes |
| `Scenarios` | scenarios.dfy | an end-to-end run of the canonical alarm flow |

Modelling choices:

- **Transports.** A WebSocket is a `TransportId` with an open flag. A transport is an *observer* (a browser) when it is open and no device entry holds it. The broadcast helper of both revisions makes exactly this test (`server.js:440-452`, `RaspberryPi_Server/server.js:315-327`). A new connection gets a transport that no client and no device entry holds yet, so each client is listed once; that is what makes every broadcast reach each observer once.
- **Handlers as pure steps.** Every handler is a pure function of the state. It returns the next state plus the frames it sent, with devices and observers listed separately. HTTP routes also return their reply.
- **Clock.** The clock is a parameter `now`. One handler invocation reads one instant.
- **Shared members.** The `Hub` members model both revisions. The rows below cite the canonical lines. The earlier revision's counterparts are at these lines of `RaspberryPi_Server/server.js`:
  - connect, 185-198; monitoring start and stop, 228-256; close, 127-137;
  - sleep start and stop, 372-423;
  - device list, session and alarm reads, 475-508.
- **Follows the code, not the description.** The program's description says a WebSocket carries at most one device. The code does not enforce that: a transport may be registered under several ids. On close, only the first entry in insertion order that holds the transport is removed (`server.js:154-164`). The model follows the code. Device transports therefore never receive broadcasts, but a closed transport can still own later entries.

## Model

| member | source | states |
|---|---|---|
| OrderedMap.Get | server.js:23-25 | `Map.get`: absent exactly when the key was never set; with unique keys, the value stored at that key's position |
| OrderedMap.Set | server.js:23-25 | `Map.set`: the key now maps to the value, every other key is unchanged, and insertion order keeps an existing key in place or appends a new one |
| OrderedMap.SetInPlace | server.js:23-25 | overwriting an existing key changes only that key's entry, keeping every position |
| OrderedMap.SetKeepsKeysUnique | server.js:23-25 | `Map.set` never creates a duplicate key |
| Registry.OwnerIndex | server.js:154-164 | the first device entry, in insertion order, that holds the transport |
| Registry.Lookup | server.js:23 | `connectedDevices.get`: the map lookup of the id, found exactly when the id is a key, with the stored record; only devices on transports some entry holds are found |
| Registry.ObserverIds | server.js:440-452 | exactly the open transports that no device entry holds, each listed once when every client is listed once |
| Registry.ObserverClassification | server.js:443-447 | a transport counts as an observer exactly when the broadcast loop's list contains it |
| Registry.Broadcast | server.js:440-452 | every observer receives the message, no device transport receives it, and when every client is listed once no transport receives it twice |
| Registry.SendTo | server.js:496-503 | at most one frame, sent exactly when the device is known and its socket is open, to that socket |
| Registry.Accept | server.js:142 | a socket the server has never handed out joins the clients open and as an observer; no other transport's state changes and the registry invariant (unique ids, each client listed once) is kept |
| Registry.Connect | server.js:215-228 | the id maps to a fresh device record on the transport; other ids are untouched; a new id is appended in order; the transport stops being an observer |
| Registry.SetMonitoring | server.js:258-286 | only a known device's monitoring flag changes; unknown ids change nothing |
| Registry.SameTransports | server.js:258-286 | updating device records in place keeps the set of device transports |
| Registry.DropFirstOwnedBy | server.js:154-164 | the loop deletes the first entry that holds the transport and stops |
| Registry.GetAfterRemoveAt | server.js:154-164 | with unique keys, deleting one entry forgets that key and keeps every other lookup |
| Registry.Disconnect | server.js:154-164 | the transport is closed and leaves the clients, at most one device entry goes, and every other device is still found |
| Registry.RemoveTransport | server.js:154-164 | the clients are exactly the previous ones minus the closed transport |
| Registry.RemoveTransportKeepsDistinct | server.js:154-164 | removing a closed socket keeps every client listed once |
| Registry.Views | server.js:382-394 | one summary per device, in insertion order, carrying each device's fields |
| Hub.StatusBroadcast | server.js:382-394 | the device list goes to every observer and to nothing else |
| Hub.StartSession | server.js:265-269 | a fresh, empty session started now replaces any earlier one for the id and leaves other ids alone |
| Hub.EnsureSession | server.js:233-240 | a session is created only when the id has none |
| Hub.Ingest | server.js:233-253 | the batch is appended to the id's samples in order, the start time of an existing session is kept, and the analysis is recorded |
| Hub.OnAccept | server.js:142-143 | a new connection is an observer until a device announces itself on it |
| Hub.OnConnected | server.js:215-228 | the device is registered on its transport and the device list reaches every observer but never the announcing transport |
| Hub.OnMonitoringStarted | server.js:258-273 | a known device is marked monitoring, the id's session restarts empty, other sessions, transports and alarms are untouched, and the refreshed device list reaches every observer |
| Hub.OnMonitoringStopped | server.js:278-286 | a known device stops monitoring; sessions and alarms are untouched, and the refreshed device list reaches every observer |
| Hub.OnClose | server.js:154-164 | the transport closes, only the first device entry on it goes, and sessions and alarm settings stay |
| Hub.Resolve | server.js:654 | `connectedDevices.get` of a raw id: an `undefined` or `null` id finds no device, and a string id finds what the device map holds |
| Hub.RequestMonitoring | server.js:523-574 | a missing id is a 400, an unknown device a 404, and otherwise the reply is a success whether or not the socket could carry the command |
| Hub.ListDevices | server.js:577-586 | one entry per connected device, in connection order; each names a registered device and, with unique ids, carries that device's monitoring flag, alarm flag and connection time; every known device is listed |
| Hub.ListedAfterConnect | server.js:215-228 | after `connected` the device list shows the device with the flags it announced and its connection time |
| Hub.SessionAfterMonitoringStarted | server.js:265-269 | after `monitoring_started` the session route shows an empty session begun then, and every other device's session reads as before |
| Hub.SessionSurvivesMonitoringStopped | server.js:278-286 | `monitoring_stopped` leaves every session as the session route showed it |
| Hub.MonitoringRestartDiscardsSamples | server.js:258-273 | starting monitoring again leaves one empty session started at the later instant |
| Hub.RoutingSeparatesDevicesFromObservers | server.js:440-452 | in a well-routed step no transport gets both a device command and a broadcast |
| Scheduler.CalculateOptimalAlarmTime | server.js:38-69 | no cycle is used unless a whole cycle fits before the target; otherwise the latest boundary not after the target, with the cycles counted from the start |
| Scheduler.RecommendationIsTargetOrBoundary | server.js:38-69 | the recommended time is the target itself or a whole number of cycles after the start |
| Analyzer.CountStage | server.js:97-106 | the count of samples at a stage never exceeds the batch |
| Analyzer.StageCountsPartition | server.js:97-106 | every sample is counted under exactly one of awake, light, deep or "unknown stage" |
| Analyzer.TallyFrom | server.js:97-106 | the loop's counters equal the per-stage counts, and its total equals the sum of movements |
| Analyzer.CycleOffset | server.js:108-116 | the offset lies in one cycle, is non-zero only for two numeric, increasing timestamps, and is the elapsed time modulo a cycle |
| Analyzer.Analyze | server.js:75-132 | a non-array or empty batch gives the zero summary; otherwise the last sample's stage and movement, whole-batch stage counts, the mean movement, and the cycle offset from the first to the last sample |
| Analyzer.UnknownStageNotCounted | server.js:102-104 | a sample with an unknown stage leaves every stage count unchanged |
| Analyzer.CountAppend | server.js:97-106 | counting a batch with one more sample adds exactly that sample's contribution |
| Orchestrator.InitialValid | server.js:23-25 | the empty server satisfies the invariant on stored alarms |
| Orchestrator.AlarmDelay | server.js:313-315 | the delay is the time to the recommendation, but at least one second |
| Orchestrator.RecordDetection | server.js:334-342 | the stored setting records the detection and sleep start at now and the scheduler's optimal and recommended times, keeps the target and dimming fields, and stays consistent; the recommendation is not after the target |
| Orchestrator.OnSleepData | server.js:233-253 | the batch joins the session, its summary is stored and reaches every observer, and devices and alarms are untouched |
| Orchestrator.OnSleepDetected | server.js:292-303 | without a known device or without an alarm setting nothing changes and nothing is sent; otherwise the outcome is the detection step below; the alarm invariant and the routing are kept |
| Orchestrator.Detected | server.js:305-350 | for a known device with an alarm setting: the setting records the detection and nothing else is stored; only an open device is told, once, the delay to the recommendation; every observer, and nothing else, hears the plan; the alarm invariant is kept |
| Orchestrator.OnAlarmTriggered | server.js:356-377 | the lamp is sent one dimming command, built from the stored setting, exactly when the device is known, open and has an alarm; observers are always told |
| Orchestrator.AlarmDimming | server.js:365-368 | each dimming field is the stored value unless that value is zero, in which case the default takes its place; a consistent setting passes through unchanged |
| Orchestrator.AlarmUsesStoredDimming | server.js:362-370 | in a valid state the lamp receives exactly the stored pattern, brightness and interval |
| Orchestrator.OnStatus | server.js:191-209 | each status runs its own handler (`connected`, `monitoring_started`, `monitoring_stopped`, `sleep_detected`, `alarm_triggered`) and any other status changes nothing; the invariant is kept and commands reach only devices and broadcasts only observers |
| Orchestrator.SleepFrame | server.js:177-208 | an array batch runs the sleep-data handler, then the status switch on the state it leaves; the invariant is kept and, for non-`connected` frames, the routing too |
| Orchestrator.DispatchWith | server.js:174-210 | a malformed frame is dropped; a non-array batch only creates the session; an array batch runs the sleep-data handler then the status switch on its result; `device_status` runs the status switch only when that handler exists; unknown data types run the status switch; the invariant is kept and, for non-`connected` frames, the routing too |
| Orchestrator.Dispatch | server.js:174-210 | as written: unparseable frames and every `device_status` frame change nothing; a `sleep_data` batch runs the sleep-data handler and then the status switch on its result; an unknown data type runs the status switch alone; the invariant is kept |
| Orchestrator.DispatchRepaired | server.js:174-210 | a `device_status` frame runs the status switch like any other frame; the other data types are routed as written; the invariant is kept |
| Orchestrator.SleepDataFrameIsRecorded | server.js:177-179 | a `sleep_data` frame without a status appends its batch to the session the session route shows, with that batch's summary as the latest one |
| Orchestrator.OtherFrameRunsStatus | server.js:186-198 | a frame of an unknown data type with `monitoring_started` still restarts the session |
| Orchestrator.SleepDetectedFrameSchedules | server.js:202-204 | a `sleep_detected` frame for a known device with an alarm records the detection and the recommendation counted from its arrival |
| Orchestrator.DeviceStatusConnectIsLost | server.js:183 | as written, a `device_status` frame announcing a connection leaves the device unregistered |
| Orchestrator.DeviceStatusConnectRegisters | server.js:183 | repaired, the same frame registers the device |
| Api.DimmingInterval | server.js:480-483 | the dimming interval is 4000 ms unless the request gives at least 200 ms |
| Api.SetAlarm | server.js:460-517 | 400 exactly for a missing, null or empty id, a missing target or an invalid date; otherwise a fresh alarm replaces the id's old one, with pattern 1, brightness 100 and interval 4000 ms standing in for a zero or absent value (and for an interval under 200 ms); the reply echoes the stored fields; only an open device is told, once, to start monitoring; the invariant is kept |
| Api.CancelAlarm | server.js:613-642 | 400 for a missing id, 404 with nothing changed for an unknown device; otherwise the setting is gone, an open device is told once to cancel, and nothing else changes |
| Api.CancelTwiceSucceeds | server.js:613-642 | cancelling again still succeeds and the setting stays gone |
| Api.AlarmReadsBackAfterSet | server.js:460-517 | after a successful set the alarm route returns the acknowledged target and dimming fields with no sleep detected, and other devices' alarms read as before |
| Api.AlarmGoneAfterCancel | server.js:613-642 | after a successful cancel the alarm route answers 404; a failed cancel leaves the alarm as it read |
| Api.DeviceCommand | server.js:647-729 | a dimmer route answers 400 for an invalid body, then 404 for an unknown device, then 503 for a closed socket, and otherwise succeeds; exactly the success sends the command, to the device's socket |
| Api.DimmerPower | server.js:647-670 | 400 exactly when the id or `on` is undefined; 404 when the device is unknown; 503 when its socket is closed; otherwise success, sending `bulb_power` with the requested state to that socket and nothing in every other case |
| Api.DimmerPattern | server.js:673-703 | 400 exactly for a missing id or pattern; 404 for an unknown device; 503 for a closed socket; on success one `bulb_dimming` goes to the device with the pattern, the brightness or 100, and an interval only when a positive one was given |
| Api.DimmerBrightness | server.js:706-729 | 400 exactly for a missing id or level; 404 for an unknown device; 503 for a closed socket; on success the level is forwarded unchanged to the device's socket |
| LegacyAnalyzer.ScoreSum | RaspberryPi_Server/server.js:50 | the running sum is NaN once any score is missing, and otherwise is the sum of the scores |
| LegacyAnalyzer.AverageMovement | RaspberryPi_Server/server.js:64-66 | NaN for an empty batch or a missing score; otherwise the mean, so that mean times count is the total |
| LegacyAnalyzer.DetermineSleepStage | RaspberryPi_Server/server.js:49-59 | deep below 0.1, light from 0.1 to below 0.3, awake otherwise and for NaN |
| LegacyAnalyzer.StageNonIncreasing | RaspberryPi_Server/server.js:49-59 | more movement never gives a deeper stage |
| LegacyAnalyzer.JsRemCycle | RaspberryPi_Server/server.js:71-73 | JavaScript `%`: the remainder is below one cycle in size, has the dividend's sign, and differs from it by whole cycles |
| LegacyAnalyzer.Analyze | RaspberryPi_Server/server.js:34-47 | the stage is deep exactly when the mean movement is below 0.1, light exactly when it is from 0.1 to below 0.3, and awake for a higher or NaN mean; the cycle offset is the clock modulo a cycle |
| LegacyAnalyzer.Recent | RaspberryPi_Server/server.js:82-83 | the filter keeps the entries newer than the cutoff, in their original order, each as many times as it occurred, and drops every other entry |
| LegacyAnalyzer.RecentMembers | RaspberryPi_Server/server.js:82-83 | an analysis is kept exactly when it is in the history and newer than the cutoff |
| LegacyAnalyzer.SubseqNoLonger | RaspberryPi_Server/server.js:82-83 | a filtered history is never longer than the original |
| LegacyAnalyzer.RecentAppend | RaspberryPi_Server/server.js:78-84 | filtering after appending equals appending after filtering |
| LegacyAnalyzer.UpdateSleepCycle | RaspberryPi_Server/server.js:78-84 | only entries from the last eight hours remain, and a current analysis is always the newest one kept |
| LegacyAnalyzer.AnalyzeSleepData | RaspberryPi_Server/server.js:34-47 | the analysis, stamped now, is appended as the newest history entry, behind the still-recent older ones |
| LegacyAnalyzer.CalculateAsWritten | RaspberryPi_Server/server.js:89-106 | as written, the "optimal" time is the target less whole cycles, which always lands less than one cycle after now |
| LegacyAnalyzer.AsWrittenAlarmWithinOneCycle | RaspberryPi_Server/server.js:89-106 | as written, every recommendation is less than 90 minutes away |
| LegacyAnalyzer.AsWrittenEightHourTarget | RaspberryPi_Server/server.js:89-106 | as written, a target eight hours away yields an alarm in thirty minutes |
| LegacyAnalyzer.Calculate | RaspberryPi_Server/server.js:89-106 | counted forward from now: the latest cycle boundary not after the target, then the 15-minute window, at least 30 minutes out, and never after a target that is itself 30 minutes out |
| LegacyAnalyzer.CalculateTracksTarget | RaspberryPi_Server/server.js:89-106 | counted forward, the recommendation is within one cycle plus the window of the target |
| LegacyAnalyzer.CalculateAgreesWithCycleScheduler | RaspberryPi_Server/server.js:89-106 | counted forward, it picks the same boundary as the canonical scheduler started now |
| LegacyHub.InitialValid | RaspberryPi_Server/server.js:17-19 | the empty server satisfies the invariant on stored alarms |
| LegacyHub.SleepDataStep | RaspberryPi_Server/server.js:203-223 | the batch joins the session, the analysis is stored and reaches every observer, and devices and alarms are untouched |
| LegacyHub.OnSleepData | RaspberryPi_Server/server.js:203-223 | the batch's analysis is the newest history entry behind the still-recent older ones, and the history holds only the last eight hours |
| LegacyHub.OnAlarmTriggered | RaspberryPi_Server/server.js:261-266 | observers are told and nothing is sent to the device |
| LegacyHub.OnStatus | RaspberryPi_Server/server.js:164-179 | `connected`, `monitoring_started`, `monitoring_stopped` and `alarm_triggered` each run their handler; `sleep_detected` and any other status change nothing; no status sends a device command, alarms and history are untouched, only `connected` changes the clients or the device transports, and the invariant is kept |
| LegacyHub.SleepFrame | RaspberryPi_Server/server.js:151-179 | an array batch runs the sleep-data handler, then the status switch on the state and history it leaves; no device command is sent, alarms are untouched, and the invariant is kept |
| LegacyHub.DispatchWith | RaspberryPi_Server/server.js:147-180 | a malformed frame is dropped; a non-array batch only creates the session; an array batch runs the sleep-data handler and the status switch; `device_status` runs the status switch only when that handler exists; the history changes only for a batch; no device command is sent |
| LegacyHub.Dispatch | RaspberryPi_Server/server.js:147-180 | as written: unparseable frames and every `device_status` frame change nothing; a `sleep_data` batch runs the sleep-data handler and then the status switch; an unknown data type runs the status switch alone; the invariant is kept |
| LegacyHub.DispatchRepaired | RaspberryPi_Server/server.js:147-180 | a `device_status` frame runs the status switch like any other frame; the other data types are routed as written; the invariant is kept |
| LegacyHub.SleepDataFrameIsRecorded | RaspberryPi_Server/server.js:203-223 | a `sleep_data` frame without a status appends its batch to the session the session route shows and its analysis to the end of the history |
| LegacyHub.SleepDetectedFrameIgnored | RaspberryPi_Server/server.js:164-179 | this revision ignores `sleep_detected`: the frame changes nothing and sends nothing |
| LegacyHub.AlarmTriggeredFrameNotifies | RaspberryPi_Server/server.js:175-177 | an `alarm_triggered` frame tells every observer and sends nothing to the device |
| LegacyHub.DeviceStatusConnectIsLost | RaspberryPi_Server/server.js:156 | as written, a `device_status` frame announcing a connection leaves the device unregistered |
| LegacyHub.DeviceStatusConnectRegisters | RaspberryPi_Server/server.js:156 | repaired, the same frame registers the device |
| LegacyHub.StoreAlarm | RaspberryPi_Server/server.js:345-362 | the id's alarm is replaced by the request plus the plan, and only an open device receives `set_alarm`, once, on its own socket |
| LegacyHub.SetAlarmAsWritten | RaspberryPi_Server/server.js:334-369 | as written: 400 exactly for a missing, null or empty id or a missing or zero target; otherwise the backward-counting plan is stored under the id with the target and the time set, other alarms, devices and sessions are untouched, only an open device receives `set_alarm` with the recommendation, once, on its own socket, and the recommendation is always 30 to 90 minutes out |
| LegacyHub.SetAlarm | RaspberryPi_Server/server.js:334-369 | 400 exactly for a missing, null or empty id or a missing or zero target; otherwise the plan is the forward-counting scheduler's answer, which brackets the target within one cycle; it is stored under the id, and only an open device receives `set_alarm`, once, on its own socket; the invariant is kept |
| LegacyHub.AsWrittenEightHourAlarmFiresEarly | RaspberryPi_Server/server.js:334-369 | as written, an alarm eight hours ahead is stored for thirty minutes ahead |
| LegacyHub.EightHourAlarmFollowsTarget | RaspberryPi_Server/server.js:334-369 | counted forward, the same alarm lands 7.5 hours out less the window |
| LegacyHub.LightCommand | RaspberryPi_Server/server.js:426-472 | a light route never answers 503: an unknown or closed device is a 404; on success exactly one frame carries the command to the device's socket, and the reply carries that command for the routes that echo it |
| LegacyHub.Clamp | RaspberryPi_Server/server.js:435 | a number is pinned to [0, 100], and NaN passes through |
| LegacyHub.BrightnessAsWritten | RaspberryPi_Server/server.js:426-438 | as written: only a null id or level is a 400; an unknown or closed device is a 404 with nothing sent; otherwise the clamped level goes to the device's socket and is echoed, and a non-numeric level makes the command's level NaN (serialised as `null`) |
| LegacyHub.Brightness | RaspberryPi_Server/server.js:426-438 | repaired: a non-numeric level is a 400 as well; an unknown or closed device is a 404 with nothing sent; otherwise the command goes to the device's socket, with a level in [0, 100] equal to the request when that is in range |
| LegacyHub.AsWrittenBrightnessSendsNaN | RaspberryPi_Server/server.js:435 | as written, a non-numeric level makes the command's level NaN, which is serialised as `null`; repaired, it is a 400 |
| LegacyHub.SunriseAsWritten | RaspberryPi_Server/server.js:441-457 | as written: a missing id is a 400; an unknown or closed device is a 404 with nothing sent; otherwise `sunrise_start` goes to the device's socket, where a falsy level becomes 100, even a requested 0, and a non-numeric field makes that command field NaN (serialised as `null`) |
| LegacyHub.Sunrise | RaspberryPi_Server/server.js:441-457 | repaired: a missing id or a non-numeric field is a 400; an unknown or closed device is a 404 with nothing sent; otherwise `sunrise_start` goes to the device's socket with the requested duration, or the default when absent or 0, and the requested level when in (0, 100], 100 when absent, 0 or above 100, and 0 when negative |
| LegacyHub.AsWrittenSunriseSendsNaN | RaspberryPi_Server/server.js:453 | as written, a non-numeric target level makes the command's level NaN, which is serialised as `null`; repaired, it is a 400 |
| LegacyHub.SunriseCancelRoute | RaspberryPi_Server/server.js:460-472 | 400 for a missing id; 404 for an unknown or closed device; otherwise exactly one `sunrise_cancel` goes to the device's socket, and the success reply does not echo it |
| Scenarios.TwoCyclesFit | server.js:38-69 | from ten minutes to four hours after a start, two cycles fit, and the alarm is due 180 minutes after the detection |
| Scenarios.SetFourHourAlarm | server.js:460-517 | an alarm set four hours ahead on an open device is stored and starts monitoring |
| Scenarios.DetectSleepTenMinutesIn | server.js:292-350 | sleep detected ten minutes in makes the device fire 180 minutes later, two cycles in |
| Scenarios.FourHourAlarm | server.js:292-350 | setting the alarm and then detecting sleep give exactly that command and stored recommendation |

## Left out

- Express, `http`, static files and the `/` page: only the routes' logic is modelled. A route returns its reply; response bodies' message strings are not modelled.
- JSON parsing: a frame that fails to parse is `Malformed`. A parsed message is already split into the fields the handlers read. Field values of the wrong JSON type are outside the model: non-string ids, strings where numbers belong, `null` array elements, and a `data` value that is iterable but not an array.
- `new Date(x).getTime()` is an input: the set-alarm target arrives as a valid instant or as "invalid".
- `parseInt` is an input as well: `Some(n)` or NaN.
- Floating point: movement scores and averages are reals. The reported `cyclePosition` is the offset divided by the cycle length; the model keeps the offset in milliseconds.
- Outgoing frames are modelled before `JSON.stringify`: a NaN field in a command stands for the `null` it is serialised as.
- `console.log` and the `error` listener: they have no effect on state.
- The dashboards (`public/app.js` and its copy) are not part of this model.
- Timer-free: neither revision schedules timers on the server, and the device firmware is not part of this model.
- `Scheduler.CalculateOptimalAlarmTime`: the `baseTime || Date.now()` fallback for a zero or missing start is not modelled, because the only caller passes the detection time.
- `Analyzer.Analyze`: sample stages and timestamps are integers; a non-integer numeric `sleep_stage` such as 1.5, which the program reports as the current stage and leaves out of every stage count, is not modelled, nor are fractional timestamps.
- `Orchestrator.Detected`: the handler reads the clock twice; the model uses one instant for both reads.
- `Api.DimmerPattern`: `pattern`, `maxBright` and `interval_ms` are forwarded as the client sent them; the model takes them as integers, where zero is the only falsy value, so a non-integer interval such as 250.5, which the route forwards, is not modelled.
- `Api.DimmerBrightness`: the level is forwarded as the client sent it; the model takes it as an integer.
- `LegacyHub.SetAlarm`: the target is used as a raw millisecond number; string targets and their implicit conversion are not modelled.
- `LegacyHub.SunriseAsWritten`: `Num(v)` stands for a JSON number; numeric strings such as `"0"`, which are truthy, are not modelled.
- `Hub.RequestMonitoring`: sending on a socket that is not open has no effect in the model, as with the `ws` library. Its error callback is not modelled.
- `Registry.Disconnect`: removing a closed socket from `wss.clients` is the `ws` library's job. The model does it on close.
- One transport per device: the program's description promises it, but the code does not enforce it, and the model does not either (see above).

## Findings

| source | as written | input that shows it | evidently intended | confidence | as-written member | corrected member |
|---|---|---|---|---|---|---|
| server.js:183 | a `device_status` frame calls `handleDeviceStatus`, which is defined nowhere; the message listener catches the `ReferenceError`, so that frame's status switch never runs | `{"device_id":"d1","data_type":"device_status","status":"connected"}` leaves `d1` unregistered | accept `device_status` and let the status switch run | medium; not executed | Orchestrator.Dispatch, Orchestrator.DeviceStatusConnectIsLost | Orchestrator.DispatchRepaired, Orchestrator.DeviceStatusConnectRegisters |
| RaspberryPi_Server/server.js:156 | the same undefined `handleDeviceStatus` call in the earlier revision | the same frame leaves `d1` unregistered | accept `device_status` and let the status switch run | medium; not executed | LegacyHub.Dispatch, LegacyHub.DeviceStatusConnectIsLost | LegacyHub.DispatchRepaired, LegacyHub.DeviceStatusConnectRegisters |
| RaspberryPi_Server/server.js:94-95 | `optimalTime = targetWakeTime - cyclesToTarget * cycle` subtracts the whole cycles from the target, leaving only the remainder after now | target = now + 8 h: 5 cycles fit, optimal = now + 30 min, alarm at now + 30 min | the latest cycle boundary counted from now: `now + cyclesToTarget * cycle` | high; not executed | LegacyAnalyzer.CalculateAsWritten, LegacyAnalyzer.AsWrittenAlarmWithinOneCycle, LegacyAnalyzer.AsWrittenEightHourTarget | LegacyAnalyzer.Calculate, LegacyAnalyzer.CalculateTracksTarget, LegacyHub.SetAlarm |
| RaspberryPi_Server/server.js:435 | `Math.max(0, Math.min(100, Number(level)))` lets NaN through, so a non-numeric level makes the command's level NaN, which `JSON.stringify` sends as `null` | `{"deviceId":"d1","level":"high"}` sends `set_brightness` with `"level":null` | reject a non-numeric level, so that the level sent is in [0, 100] | medium; not executed | LegacyHub.BrightnessAsWritten, LegacyHub.AsWrittenBrightnessSendsNaN | LegacyHub.Brightness |
| RaspberryPi_Server/server.js:453 | the same clamp on `Number(target_level \|\| 100)` lets NaN through, and `JSON.stringify` sends it as `null` | `{"deviceId":"d1","target_level":"max"}` sends `sunrise_start` with `"target_level":null` | reject non-numeric fields, so that the level sent is in [0, 100] | medium; not executed | LegacyHub.SunriseAsWritten, LegacyHub.AsWrittenSunriseSendsNaN | LegacyHub.Sunrise |

=== FILE: analyzer.dfy ===
/** `analyzeSleepData` of the canonical revision: a snapshot of one
    `sleep_data` batch. Stage and movement are the last sample's readings;
    stage counts and the average movement are whole-batch aggregates; the
    cycle offset is the time the batch spans, reduced modulo one cycle. */
module Analyzer {
  import opened Wrappers
  import opened Protocol
  import opened Scheduler

  datatype StageCounts = StageCounts(awake: nat, light: nat, deep: nat)

  /** `cycleOffsetMs` is the numerator of the reported `cyclePosition`, which
      is `cycleOffsetMs / CycleMs`. */
  datatype Snapshot = Snapshot(
    sleepStage: int,
    movementLevel: real,
    cycleOffsetMs: int,
    stageCounts: StageCounts,
    avgMovement: real)

  /** The snapshot reported for an empty or non-array batch. */
  const ZeroSnapshot: Snapshot := Snapshot(0, 0.0, 0, StageCounts(0, 0, 0), 0.0)

  /** A sample's stage; a non-number stage reads as 0 (awake). */
  function StageOf(s: Sample): int {
    s.stage.GetOr(0)
  }

  /** A sample's movement score; a non-number score reads as 0. */
  function MovementOf(s: Sample): real {
    s.movement.GetOr(0.0)
  }

  /** The number of samples whose stage reads as `k`. */
  function CountStage(batch: seq<Sample>, k: int): (n: nat)
    ensures n <= |batch|
  {
    if |batch| == 0 then 0
    else (if StageOf(batch[0]) == k then 1 else 0) + CountStage(batch[1..], k)
  }

  /** The number of samples whose stage is none of 0, 1 and 2. */
  function CountUnstaged(batch: seq<Sample>): (n: nat)
    ensures n <= |batch|
  {
    if |batch| == 0 then 0
    else (if StageOf(batch[0]) in {0, 1, 2} then 0 else 1) + CountUnstaged(batch[1..])
  }

  /** The sum of all movement scores. */
  function TotalMovement(batch: seq<Sample>): real {
    if |batch| == 0 then 0.0 else MovementOf(batch[0]) + TotalMovement(batch[1..])
  }

  /** Every sample falls in exactly one of the stage counts or the uncounted rest. */
  lemma {:induction false} StageCountsPartition(batch: seq<Sample>)
    ensures CountStage(batch, 0) + CountStage(batch, 1) + CountStage(batch, 2) + CountUnstaged(batch) == |batch|
  {
    if |batch| > 0 {
      StageCountsPartition(batch[1..]);
    }
  }

  /** The running aggregate of the analysis loop. */
  datatype Tally = Tally(counts: StageCounts, total: real)

  /** One loop iteration: add the movement, and count the stage when it is
      one of the three known keys. */
  function Accumulate(t: Tally, d: Sample): Tally {
    var c := t.counts;
    var counts :=
      match StageOf(d)
      case 0 => c.(awake := c.awake + 1)
      case 1 => c.(light := c.light + 1)
      case 2 => c.(deep := c.deep + 1)
      case _ => c;
    Tally(counts, t.total + MovementOf(d))
  }

  /** The loop over the whole batch, front to back. */
  function TallyFrom(t: Tally, batch: seq<Sample>): (r: Tally)
    ensures r.counts.awake == t.counts.awake + CountStage(batch, 0)
    ensures r.counts.light == t.counts.light + CountStage(batch, 1)
    ensures r.counts.deep == t.counts.deep + CountStage(batch, 2)
    ensures r.total == t.total + TotalMovement(batch)
    decreases |batch|
  {
    if |batch| == 0 then t else TallyFrom(Accumulate(t, batch[0]), batch[1..])
  }

  /** The elapsed time between the first and last timestamps, modulo one
      cycle; 0 unless both are numbers and the last is later. */
  function CycleOffset(first: Option<int>, last: Option<int>): (r: int)
    ensures 0 <= r < CycleMs
    ensures r != 0 ==> first.Some? && last.Some? && last.value > first.value
    ensures first.Some? && last.Some? && last.value > first.value ==>
      (last.value - first.value - r) % CycleMs == 0
  {
    if first.Some? && last.Some? then
      var elapsed := if last.value - first.value > 0 then last.value - first.value else 0;
      if elapsed > 0 then elapsed % CycleMs else 0
    else 0
  }

  /** `analyzeSleepData(dataArray)`; `None` stands for a value that is not an array. */
  function Analyze(batch: Option<seq<Sample>>): (r: Snapshot)
    ensures batch.None? || batch.value == [] ==> r == ZeroSnapshot
    ensures batch.Some? && batch.value != [] ==>
      var b := batch.value;
      var last := b[|b| - 1];
      && r.sleepStage == StageOf(last)
      && r.movementLevel == MovementOf(last)
      && r.stageCounts == StageCounts(CountStage(b, 0), CountStage(b, 1), CountStage(b, 2))
      && r.stageCounts.awake + r.stageCounts.light + r.stageCounts.deep + CountUnstaged(b) == |b|
      && r.avgMovement == TotalMovement(b) / (|b| as real)
      && r.cycleOffsetMs == CycleOffset(b[0].timestamp, last.timestamp)
      && 0 <= r.cycleOffsetMs < CycleMs
      && (r.cycleOffsetMs != 0 ==>
            b[0].timestamp.Some? && last.timestamp.Some? && last.timestamp.value > b[0].timestamp.value)
  {
    match batch
    case None => ZeroSnapshot
    case Some(b) =>
      if |b| == 0 then ZeroSnapshot
      else
        var last := b[|b| - 1];
        var tally := TallyFrom(Tally(StageCounts(0, 0, 0), 0.0), b);
        StageCountsPartition(b);
        Snapshot(
          StageOf(last),
          MovementOf(last),
          CycleOffset(b[0].timestamp, last.timestamp),
          tally.counts,
          tally.total / (|b| as real))
  }

  /** A sample whose stage is none of 0, 1 and 2 leaves every count unchanged. */
  lemma UnknownStageNotCounted(batch: seq<Sample>, d: Sample)
    requires StageOf(d) !in {0, 1, 2}
    ensures Analyze(Some(batch + [d])).stageCounts == Analyze(Some(batch)).stageCounts
  {
    if batch == [] {
      assert batch + [d] == [d];
    }
    CountAppend(batch, d, 0);
    CountAppend(batch, d, 1);
    CountAppend(batch, d, 2);
  }

  /** Counting over a batch with one more sample at the end. */
  lemma {:induction false} CountAppend(batch: seq<Sample>, d: Sample, k: int)
    ensures CountStage(batch + [d], k) == CountStage(batch, k) + (if StageOf(d) == k then 1 else 0)
  {
    if |batch| > 0 {
      assert (batch + [d])[1..] == batch[1..] + [d];
      CountAppend(batch[1..], d, k);
    } else {
      assert (batch + [d])[1..] == [];
    }
  }
}

=== FILE: api.dfy ===
/** The canonical revision's request handlers: alarm set and cancel and the
    dimmer controls. Each one validates its body, looks the device up, and
    answers with a reply plus the commands it sent. */
module Api {
  import opened Wrappers
  import opened Registry
  import opened Protocol
  import opened Hub
  import opened Analyzer
  import opened Orchestrator

  /** `targetWakeTime` of a set-alarm body: a falsy value (missing, null,
      0, empty), or a value whose `new Date(...)` is a valid instant
      (`Some`) or an invalid one (`None`). */
  datatype WakeTime = Missing | Given(parsed: Option<int>)

  /** A set-alarm body; numeric fields are `parseInt` results (`None` is NaN). */
  datatype AlarmRequest = AlarmRequest(
    targetWakeTime: WakeTime,
    deviceId: RawId,
    pattern: Option<int>,
    maxBright: Option<int>,
    intervalMs: Option<int>)

  /** The success reply of set-alarm. */
  datatype AlarmAck = AlarmAck(targetWakeTime: int, pattern: int, maxBright: int, intervalMs: int)

  type ApiOutcome<T> = ApiStep<Snapshot, AlarmSetting, T>

  /** The dimming step period: a parsed value of at least 200 ms is kept,
      anything else becomes 4000 ms. */
  function DimmingInterval(x: Option<int>): (r: int)
    ensures r == DefaultIntervalMs || r >= MinIntervalMs
    ensures x.Some? && x.value >= MinIntervalMs ==> r == x.value
    ensures x.None? || x.value < MinIntervalMs ==> r == DefaultIntervalMs
  {
    if x.None? || x.value < MinIntervalMs then DefaultIntervalMs else x.value
  }

  /** `POST /api/alarm/set`. A missing id or target, or a target that is not a
      valid date, is rejected with nothing changed. Otherwise a fresh setting
      replaces any earlier one for the id, whether or not the device is
      connected, and a connected open device is told to start monitoring. */
  function SetAlarm(h: State, now: int, req: AlarmRequest): (r: ApiOutcome<AlarmAck>)
    ensures r.reply.Ok? || r.reply.ValidationError?
    ensures r.reply.ValidationError? <==>
      MissingId(req.deviceId) || req.targetWakeTime.Missing? || req.targetWakeTime.parsed.None?
    ensures r.reply.ValidationError? ==> r.hub == h && r.commands == []
    ensures r.reply.Ok? ==>
      var id := req.deviceId.s;
      && r.hub.reg == h.reg && r.hub.sessions == h.sessions
      && id in r.hub.alarms
      && (forall other :: other != id ==>
            (other in r.hub.alarms <==> other in h.alarms) &&
            (other in h.alarms ==> r.hub.alarms[other] == h.alarms[other]))
      && var s := r.hub.alarms[id];
      && s.targetWakeTime == req.targetWakeTime.parsed.value
      && !s.sleepDetected && s.optimalWakeTime.None? && s.recommendedTime.None?
      && s.sleepStartTime.None? && s.sleepDetectedAt.None? && s.setAt == now
      && s.pattern == (if req.pattern.Some? && req.pattern.value != 0 then req.pattern.value else 1)
      && s.maxBright == (if req.maxBright.Some? && req.maxBright.value != 0 then req.maxBright.value else 100)
      && s.intervalMs == (if req.intervalMs.Some? && req.intervalMs.value >= MinIntervalMs
                          then req.intervalMs.value else DefaultIntervalMs)
      && r.reply.value == AlarmAck(s.targetWakeTime, s.pattern, s.maxBright, s.intervalMs)
      && (r.commands != [] <==> Lookup(h.reg, id).Some? && IsOpen(h.reg, Lookup(h.reg, id).value.transport))
      && (forall d :: d in r.commands ==> d.msg == StartMonitoring(now) && d.to == Lookup(h.reg, id).value.transport)
    ensures |r.commands| <= 1
    ensures Valid(h) ==> Valid(r.hub)
  {
    if MissingId(req.deviceId) || req.targetWakeTime.Missing? then ApiStep(h, ValidationError, [])
    else match req.targetWakeTime.parsed
      case None => ApiStep(h, ValidationError, [])
      case Some(wakeTs) =>
        var id := req.deviceId.s;
        var setting := AlarmSetting(
          wakeTs, None, None, now, false,
          ParsedOr(req.pattern, 1), ParsedOr(req.maxBright, 100), DimmingInterval(req.intervalMs),
          None, None);
        var hub := h.(alarms := h.alarms[id := setting]);
        ApiStep(hub, Ok(AlarmAck(wakeTs, setting.pattern, setting.maxBright, setting.intervalMs)),
                SendTo(h.reg, id, StartMonitoring(now)))
  }

  /** `POST /api/alarm/cancel`. An unknown device is reported and nothing
      changes, even if an alarm is stored under its id. For a known device
      the cancel command goes out when its transport is open, and the
      setting is deleted in any case. */
  function CancelAlarm(h: State, now: int, id: RawId): (r: ApiOutcome<()>)
    ensures MissingId(id) ==> r.hub == h && r.reply == ValidationError && r.commands == []
    ensures !MissingId(id) && Lookup(h.reg, id.s).None? ==> r.hub == h && r.reply == NotFound && r.commands == []
    ensures !MissingId(id) && Lookup(h.reg, id.s).Some? ==>
      var dev := Lookup(h.reg, id.s).value;
      && r.reply == Ok(())
      && r.hub.reg == h.reg && r.hub.sessions == h.sessions
      && id.s !in r.hub.alarms
      && (forall other :: other != id.s ==>
            (other in r.hub.alarms <==> other in h.alarms) &&
            (other in h.alarms ==> r.hub.alarms[other] == h.alarms[other]))
      && (r.commands != [] <==> IsOpen(h.reg, dev.transport))
      && (forall d :: d in r.commands ==> d == Delivery(dev.transport, Protocol.CancelAlarm(now)))
    ensures |r.commands| <= 1
    ensures Valid(h) ==> Valid(r.hub)
  {
    if MissingId(id) then ApiStep(h, ValidationError, [])
    else match Lookup(h.reg, id.s)
      case None => ApiStep(h, NotFound, [])
      case Some(dev) =>
        ApiStep(h.(alarms := h.alarms - {id.s}), Ok(()), SendTo(h.reg, id.s, Protocol.CancelAlarm(now)))
  }

  /** The alarm route reads back what a successful set stored and
      acknowledged, and other devices' alarms read as before. */
  lemma AlarmReadsBackAfterSet(h: State, now: int, req: AlarmRequest, other: DeviceId)
    requires SetAlarm(h, now, req).reply.Ok?
    requires other != req.deviceId.s
    ensures var r := SetAlarm(h, now, req);
      var ack := r.reply.value;
      var got := GetAlarm(r.hub, req.deviceId.s);
      && got.Ok?
      && got.value.targetWakeTime == ack.targetWakeTime
      && got.value.pattern == ack.pattern && got.value.maxBright == ack.maxBright
      && got.value.intervalMs == ack.intervalMs
      && !got.value.sleepDetected
      && GetAlarm(r.hub, other) == GetAlarm(h, other)
  {
  }

  /** After a successful cancel the alarm route answers 404; a cancel that
      failed leaves the alarm readable as before. */
  lemma AlarmGoneAfterCancel(h: State, now: int, id: DeviceId)
    requires id != ""
    ensures var r := CancelAlarm(h, now, Id(id));
      && (r.reply.Ok? ==> GetAlarm(r.hub, id) == NotFound)
      && (!r.reply.Ok? ==> GetAlarm(r.hub, id) == GetAlarm(h, id))
  {
  }

  /** Cancelling twice is safe: the second cancel of a still-connected device
      succeeds again and the setting stays absent. */
  lemma CancelTwiceSucceeds(h: State, now1: int, now2: int, id: DeviceId)
    requires id != "" && Lookup(h.reg, id).Some?
    ensures var first := CancelAlarm(h, now1, Id(id));
      var second := CancelAlarm(first.hub, now2, Id(id));
      first.reply == Ok(()) && second.reply == Ok(()) && id !in second.hub.alarms
  {
  }

  /** The shape every dimmer route shares: reject an invalid body, then an
      unknown device (404), then a closed transport (503); otherwise send
      `cmd` and succeed. A command goes out exactly when the reply is a
      success. */
  function DeviceCommand(h: State, valid: bool, id: RawId, cmd: Command): (r: ApiOutcome<()>)
    ensures r.hub == h
    ensures r.commands != [] <==> r.reply.Ok?
    ensures r.reply.Ok? <==> valid && Online(h, id)
    ensures r.reply.ValidationError? <==> !valid
    ensures r.reply.NotFound? <==> valid && Resolve(h.reg, id).None?
    ensures r.reply.Unavailable? <==> valid && Resolve(h.reg, id).Some? && !Online(h, id)
    ensures r.reply.Ok? ==> r.commands == [Delivery(Resolve(h.reg, id).value.transport, cmd)]
  {
    if !valid then ApiStep(h, ValidationError, [])
    else match Resolve(h.reg, id)
      case None => ApiStep(h, NotFound, [])
      case Some(dev) =>
        if IsOpen(h.reg, dev.transport) then ApiStep(h, Ok(()), [Delivery(dev.transport, cmd)])
        else ApiStep(h, Unavailable, [])
  }

  /** `POST /api/dimmer/power`: only an undefined id or an undefined `on`
      is invalid; a null id is looked up and not found. */
  function DimmerPower(h: State, id: RawId, on: Option<bool>): (r: ApiOutcome<()>)
    ensures r.hub == h
    ensures r.reply.ValidationError? <==> id.Undefined? || on.None?
    ensures r.reply.NotFound? <==> !id.Undefined? && on.Some? && Resolve(h.reg, id).None?
    ensures r.reply.Unavailable? <==> !id.Undefined? && on.Some? && Resolve(h.reg, id).Some? && !Online(h, id)
    ensures r.reply.Ok? <==> !id.Undefined? && on.Some? && Online(h, id)
    ensures r.reply.Ok? ==> r.commands == [Delivery(Resolve(h.reg, id).value.transport, BulbPower(on.value))]
    ensures !r.reply.Ok? ==> r.commands == []
  {
    DeviceCommand(h, !id.Undefined? && on.Some?, id, BulbPower(on.GetOr(false)))
  }

  /** `POST /api/dimmer/pattern`: the pattern passes through unparsed,
      `maxBright` defaults to 100, and `interval_ms` is attached only when it
      is a positive number. */
  function DimmerPattern(h: State, id: RawId, pattern: Option<int>, maxBright: Option<int>, intervalMs: Option<int>)
    : (r: ApiOutcome<()>)
    ensures r.hub == h
    ensures r.reply.ValidationError? <==> MissingId(id) || pattern.None? || pattern.value == 0
    ensures r.reply.NotFound? <==> !r.reply.ValidationError? && Resolve(h.reg, id).None?
    ensures r.reply.Unavailable? <==> !r.reply.ValidationError? && Resolve(h.reg, id).Some? && !Online(h, id)
    ensures r.reply.Ok? <==> !r.reply.ValidationError? && Online(h, id)
    ensures r.reply.Ok? ==> |r.commands| == 1 && r.commands[0].to == Resolve(h.reg, id).value.transport
    ensures forall d :: d in r.commands ==>
      && d.msg.BulbDimming? && pattern.Some?
      && d.msg.pattern == pattern.value && d.msg.pattern != 0
      && d.msg.maxBright != 0
      && (maxBright.Some? && maxBright.value != 0 ==> d.msg.maxBright == maxBright.value)
      && (maxBright.None? || maxBright.value == 0 ==> d.msg.maxBright == 100)
      && (d.msg.intervalMs.Some? <==> intervalMs.Some? && intervalMs.value > 0)
      && (d.msg.intervalMs.Some? ==> d.msg.intervalMs.value == intervalMs.value)
    ensures r.commands != [] <==> r.reply.Ok?
  {
    var interval := if intervalMs.Some? && intervalMs.value > 0 then intervalMs else None;
    var valid := !MissingId(id) && pattern.Some? && pattern.value != 0;
    DeviceCommand(h, valid, id, BulbDimming(pattern.GetOr(0), ParsedOr(maxBright, 100), interval))
  }

  /** `POST /api/dimmer/brightness`: the level is forwarded as given. */
  function DimmerBrightness(h: State, id: RawId, level: Option<int>): (r: ApiOutcome<()>)
    ensures r.hub == h
    ensures r.reply.ValidationError? <==> MissingId(id) || level.None?
    ensures r.reply.NotFound? <==> !MissingId(id) && level.Some? && Resolve(h.reg, id).None?
    ensures r.reply.Unavailable? <==> !MissingId(id) && level.Some? && Resolve(h.reg, id).Some? && !Online(h, id)
    ensures r.reply.Ok? <==> !MissingId(id) && level.Some? && Online(h, id)
    ensures r.reply.Ok? ==> r.commands == [Delivery(Resolve(h.reg, id).value.transport, SetPowerClamped(level.value))]
    ensures r.commands != [] <==> r.reply.Ok?
  {
    DeviceCommand(h, !MissingId(id) && level.Some?, id, SetPowerClamped(level.GetOr(0)))
  }
}

=== FILE: hub.dfy ===
/** The state and handlers both revisions share: the registry, one sleep
    session per device id and one alarm setting per device id, plus the
    connect / monitoring / close handlers and the read-only routes.
    `A` is the analysis a revision stores and broadcasts, `S` its alarm setting. */
module Hub {
  import opened Wrappers
  import opened OrderedMap
  import opened Registry
  import opened Protocol

  /** A sleep session: server-assigned start, samples in arrival order, and
      the analysis of the latest batch. */
  datatype Session<A> = Session(startTime: int, samples: seq<Sample>, lastAnalysis: Option<A>)

  datatype Hub<A, S> = Hub(reg: Registry, sessions: map<DeviceId, Session<A>>, alarms: map<DeviceId, S>)

  /** The result of handling one event: the next state, the frames sent to
      devices and the frames broadcast to observers, each in sending order. */
  datatype Step<A, S> = Step(hub: Hub<A, S>, commands: seq<Delivery<Command>>, broadcasts: seq<Delivery<Event<A>>>)

  /** The result of one HTTP request: the next state, the reply and the
      frames sent to devices. */
  datatype ApiStep<A, S, T> = ApiStep(hub: Hub<A, S>, reply: Reply<T>, commands: seq<Delivery<Command>>)

  /** Device commands reach open device transports only, and broadcasts reach
      observers only, both judged against the registry of the final state. */
  ghost predicate WellRouted<A, S>(st: Step<A, S>) {
    && (forall d :: d in st.commands ==> IsDeviceTransport(st.hub.reg, d.to) && IsOpen(st.hub.reg, d.to))
    && (forall d :: d in st.broadcasts ==> IsObserver(st.hub.reg, d.to))
  }

  /** In a well-routed step no transport receives both a device command and
      an observer broadcast. */
  lemma RoutingSeparatesDevicesFromObservers<A, S>(st: Step<A, S>, c: Delivery<Command>, b: Delivery<Event<A>>)
    requires WellRouted(st)
    requires c in st.commands && b in st.broadcasts
    ensures c.to != b.to
  {
  }

  /** Nothing changes and nothing is sent. */
  function Quiet<A, S>(h: Hub<A, S>): (r: Step<A, S>)
    ensures r.hub == h && r.commands == [] && r.broadcasts == []
    ensures WellRouted(r)
  {
    Step(h, [], [])
  }

  /** `b` runs on the state `a` left; their frames go out in that order. */
  function Then<A, S>(a: Step<A, S>, b: Step<A, S>): (r: Step<A, S>)
    ensures r.hub == b.hub
    ensures r.commands == a.commands + b.commands
    ensures r.broadcasts == a.broadcasts + b.broadcasts
  {
    Step(b.hub, a.commands + b.commands, a.broadcasts + b.broadcasts)
  }

  /** A silent step followed by a well-routed one is well routed when the
      first step's listeners are still observers at the end. */
  lemma ThenWellRouted<A, S>(a: Step<A, S>, b: Step<A, S>)
    requires a.commands == [] && WellRouted(b)
    requires forall d :: d in a.broadcasts ==> IsObserver(b.hub.reg, d.to)
    ensures WellRouted(Then(a, b))
  {
  }

  /** The same, when the second step keeps the clients and the device
      transports of the registry the first step broadcast over. */
  lemma ThenKeepsRouting<A, S>(a: Step<A, S>, b: Step<A, S>, before: Registry)
    requires a.commands == [] && WellRouted(b)
    requires forall d :: d in a.broadcasts ==> IsObserver(before, d.to)
    requires b.hub.reg.clients == before.clients
    requires forall u :: IsDeviceTransport(b.hub.reg, u) <==> IsDeviceTransport(before, u)
    ensures WellRouted(Then(a, b))
  {
    assert forall d :: d in a.broadcasts ==> IsObserver(b.hub.reg, d.to);
    ThenWellRouted(a, b);
  }

  /** `broadcastDeviceStatus`: the device summaries, to every observer. */
  function StatusBroadcast<A>(reg: Registry): (r: seq<Delivery<Event<A>>>)
    ensures forall d :: d in r ==> d.msg == DeviceStatusEvent(Views(reg.devices)) && IsObserver(reg, d.to)
    ensures forall t :: IsObserver(reg, t) ==> Delivery(t, DeviceStatusEvent(Views(reg.devices))) in r
  {
    Broadcast(reg, DeviceStatusEvent(Views(reg.devices)))
  }

  /** The session map after device `id` starts a fresh session at `now`. */
  function StartSession<A>(sessions: map<DeviceId, Session<A>>, id: DeviceId, now: int)
    : (r: map<DeviceId, Session<A>>)
    ensures id in r && r[id].samples == [] && r[id].startTime == now && r[id].lastAnalysis.None?
    ensures forall other :: other != id ==>
      (other in r <==> other in sessions) && (other in sessions ==> r[other] == sessions[other])
  {
    sessions[id := Session(now, [], None)]
  }

  /** The session map with a session for `id`, created at `now` only when
      there was none. */
  function EnsureSession<A>(sessions: map<DeviceId, Session<A>>, id: DeviceId, now: int)
    : (r: map<DeviceId, Session<A>>)
    ensures id in r
    ensures id in sessions ==> r == sessions
    ensures id !in sessions ==> r[id] == Session(now, [], None)
    ensures forall other :: other != id ==>
      (other in r <==> other in sessions) && (other in sessions ==> r[other] == sessions[other])
  {
    if id in sessions then sessions else StartSession(sessions, id, now)
  }

  /** The samples device `id` has accumulated so far. */
  function SamplesOf<A>(sessions: map<DeviceId, Session<A>>, id: DeviceId): seq<Sample> {
    if id in sessions then sessions[id].samples else []
  }

  /** The session part of `handleSleepData`: create the session lazily, append
      the batch in order and record its analysis. */
  function Ingest<A, S>(h: Hub<A, S>, now: int, id: DeviceId, batch: seq<Sample>, analysis: A): (r: Hub<A, S>)
    ensures r.reg == h.reg && r.alarms == h.alarms
    ensures id in r.sessions
    ensures r.sessions[id].samples == SamplesOf(h.sessions, id) + batch
    ensures r.sessions[id].startTime == (if id in h.sessions then h.sessions[id].startTime else now)
    ensures r.sessions[id].lastAnalysis == Some(analysis)
    ensures forall other :: other != id ==>
      (other in r.sessions <==> other in h.sessions) && (other in h.sessions ==> r.sessions[other] == h.sessions[other])
  {
    var sessions := EnsureSession(h.sessions, id, now);
    var s := sessions[id];
    h.(sessions := sessions[id := s.(samples := s.samples + batch, lastAnalysis := Some(analysis))])
  }

  /** A new WebSocket connection: it becomes an observer until a device
      announces itself over it. */
  function OnAccept<A, S>(h: Hub<A, S>, t: TransportId): (r: Step<A, S>)
    requires Fresh(h.reg, t)
    ensures r.hub.sessions == h.sessions && r.hub.alarms == h.alarms && r.hub.reg.devices == h.reg.devices
    ensures IsObserver(r.hub.reg, t)
    ensures forall u :: u != t ==> (IsOpen(r.hub.reg, u) <==> IsOpen(h.reg, u))
    ensures r.commands == [] && r.broadcasts == []
    ensures WellRouted(r)
    ensures WellFormed(h.reg) ==> WellFormed(r.hub.reg)
  {
    Step(h.(reg := Accept(h.reg, t)), [], [])
  }

  /** `handleDeviceConnection`: upsert the device under `id` on transport `t`,
      then broadcast the device list. */
  function OnConnected<A, S>(h: Hub<A, S>, now: int, t: TransportId, id: DeviceId, monitoring: bool, alarmActive: bool)
    : (r: Step<A, S>)
    ensures r.hub.sessions == h.sessions && r.hub.alarms == h.alarms
    ensures r.hub.reg.clients == h.reg.clients
    ensures Lookup(r.hub.reg, id) == Some(Device(t, now, monitoring, alarmActive))
    ensures forall other :: other != id ==> Lookup(r.hub.reg, other) == Lookup(h.reg, other)
    ensures r.commands == []
    ensures forall d :: d in r.broadcasts ==> d.msg == DeviceStatusEvent(Views(r.hub.reg.devices)) && d.to != t
    ensures forall u :: IsObserver(r.hub.reg, u) ==> Delivery(u, DeviceStatusEvent(Views(r.hub.reg.devices))) in r.broadcasts
    ensures WellRouted(r)
    ensures WellFormed(h.reg) ==> WellFormed(r.hub.reg)
  {
    var reg := Connect(h.reg, id, t, now, monitoring, alarmActive);
    Step(h.(reg := reg), [], StatusBroadcast(reg))
  }

  /** `handleMonitoringStarted`: mark a known device as monitoring, replace
      the session of `id` with an empty one (known device or not) and
      broadcast the device list. */
  function OnMonitoringStarted<A, S>(h: Hub<A, S>, now: int, id: DeviceId): (r: Step<A, S>)
    ensures r.hub.alarms == h.alarms
    ensures Keys(r.hub.reg.devices) == Keys(h.reg.devices)
    ensures Lookup(h.reg, id).Some? ==> Lookup(r.hub.reg, id) == Some(Lookup(h.reg, id).value.(isMonitoring := true))
    ensures Lookup(h.reg, id).None? ==> r.hub.reg == h.reg
    ensures forall other :: other != id ==> Lookup(r.hub.reg, other) == Lookup(h.reg, other)
    ensures id in r.hub.sessions && r.hub.sessions[id] == Session(now, [], None)
    ensures forall other :: other != id ==>
      (other in r.hub.sessions <==> other in h.sessions) &&
      (other in h.sessions ==> r.hub.sessions[other] == h.sessions[other])
    ensures r.commands == []
    ensures forall d :: d in r.broadcasts ==> d.msg == DeviceStatusEvent(Views(r.hub.reg.devices))
    ensures forall u :: IsObserver(r.hub.reg, u) ==> Delivery(u, DeviceStatusEvent(Views(r.hub.reg.devices))) in r.broadcasts
    ensures WellRouted(r)
    ensures r.hub.reg.clients == h.reg.clients
    ensures WellFormed(h.reg) ==> forall u :: IsDeviceTransport(r.hub.reg, u) <==> IsDeviceTransport(h.reg, u)
    ensures WellFormed(h.reg) ==> WellFormed(r.hub.reg)
  {
    var reg := SetMonitoring(h.reg, id, true);
    Step(Hub(reg, StartSession(h.sessions, id, now), h.alarms), [], StatusBroadcast(reg))
  }

  /** `handleMonitoringStopped`: clear the flag of a known device and
      broadcast; the session is kept. */
  function OnMonitoringStopped<A, S>(h: Hub<A, S>, id: DeviceId): (r: Step<A, S>)
    ensures r.hub.sessions == h.sessions && r.hub.alarms == h.alarms
    ensures Keys(r.hub.reg.devices) == Keys(h.reg.devices)
    ensures Lookup(h.reg, id).Some? ==> Lookup(r.hub.reg, id) == Some(Lookup(h.reg, id).value.(isMonitoring := false))
    ensures Lookup(h.reg, id).None? ==> r.hub.reg == h.reg
    ensures forall other :: other != id ==> Lookup(r.hub.reg, other) == Lookup(h.reg, other)
    ensures r.commands == []
    ensures forall d :: d in r.broadcasts ==> d.msg == DeviceStatusEvent(Views(r.hub.reg.devices))
    ensures forall u :: IsObserver(r.hub.reg, u) ==> Delivery(u, DeviceStatusEvent(Views(r.hub.reg.devices))) in r.broadcasts
    ensures WellRouted(r)
    ensures r.hub.reg.clients == h.reg.clients
    ensures WellFormed(h.reg) ==> forall u :: IsDeviceTransport(r.hub.reg, u) <==> IsDeviceTransport(h.reg, u)
    ensures WellFormed(h.reg) ==> WellFormed(r.hub.reg)
  {
    var reg := SetMonitoring(h.reg, id, false);
    Step(h.(reg := reg), [], StatusBroadcast(reg))
  }

  /** The `close` listener: the transport leaves and only the first device
      entry holding it is removed. Sessions and alarm settings stay. */
  function OnClose<A, S>(h: Hub<A, S>, t: TransportId): (r: Step<A, S>)
    ensures r.hub.sessions == h.sessions && r.hub.alarms == h.alarms
    ensures !IsOpen(r.hub.reg, t)
    ensures OwnerIndex(h.reg.devices, t).None? ==> r.hub.reg.devices == h.reg.devices
    ensures OwnerIndex(h.reg.devices, t).Some? ==>
      var i := OwnerIndex(h.reg.devices, t).value;
      r.hub.reg.devices == h.reg.devices[..i] + h.reg.devices[i + 1..]
    ensures WellFormed(h.reg) && OwnerIndex(h.reg.devices, t).Some? ==>
      var gone := h.reg.devices[OwnerIndex(h.reg.devices, t).value].key;
      Lookup(r.hub.reg, gone).None? && forall id :: id != gone ==> Lookup(r.hub.reg, id) == Lookup(h.reg, id)
    ensures r.commands == [] && r.broadcasts == []
    ensures WellFormed(h.reg) ==> WellFormed(r.hub.reg)
  {
    Step(h.(reg := Disconnect(h.reg, t)), [], [])
  }

  /** `connectedDevices.get(deviceId)` for a raw id: `undefined` and `null`
      are never keys. */
  function Resolve(reg: Registry, id: RawId): (r: Option<Device>)
    ensures id.Id? ==> r == Lookup(reg, id.s)
    ensures !id.Id? ==> r.None?
  {
    match id
    case Id(s) => Lookup(reg, s)
    case _ => None
  }

  /** The device a raw id names is known and its transport is open. */
  predicate Online<A, S>(h: Hub<A, S>, id: RawId) {
    Resolve(h.reg, id).Some? && IsOpen(h.reg, Resolve(h.reg, id).value.transport)
  }

  /** `POST /api/sleep/start` (`start`) and `POST /api/sleep/stop`: tell a
      known device to start or stop monitoring. The route sends without
      checking the transport, and a closed WebSocket drops the frame, so the
      reply is a success whether or not the command was delivered. */
  function RequestMonitoring<A, S>(h: Hub<A, S>, now: int, id: RawId, start: bool): (r: ApiStep<A, S, ()>)
    ensures r.hub == h
    ensures MissingId(id) ==> r.reply == ValidationError && r.commands == []
    ensures !MissingId(id) && Lookup(h.reg, id.s).None? ==> r.reply == NotFound && r.commands == []
    ensures !MissingId(id) && Lookup(h.reg, id.s).Some? ==>
      var dev := Lookup(h.reg, id.s).value;
      && r.reply == Ok(())
      && r.commands == (if IsOpen(h.reg, dev.transport)
                        then [Delivery(dev.transport, if start then StartMonitoring(now) else StopMonitoring(now))]
                        else [])
  {
    if MissingId(id) then ApiStep(h, ValidationError, [])
    else match Lookup(h.reg, id.s)
      case None => ApiStep(h, NotFound, [])
      case Some(dev) =>
        ApiStep(h, Ok(()), SendTo(h.reg, id.s, if start then StartMonitoring(now) else StopMonitoring(now)))
  }

  /** `GET /api/devices`: one summary per device entry, in insertion order,
      each showing the flags and connection time the registry holds for
      that id; every known device is listed. */
  function ListDevices<A, S>(h: Hub<A, S>): (r: seq<DeviceView>)
    ensures |r| == |h.reg.devices|
    ensures forall i :: 0 <= i < |r| ==> r[i].deviceId == h.reg.devices[i].key && Lookup(h.reg, r[i].deviceId).Some?
    ensures WellFormed(h.reg) ==> forall i :: 0 <= i < |r| ==>
      var dev := Lookup(h.reg, r[i].deviceId).value;
      r[i].isMonitoring == dev.isMonitoring && r[i].alarmActive == dev.alarmActive && r[i].connectedAt == dev.connectedAt
    ensures forall id :: Lookup(h.reg, id).Some? ==> exists i :: 0 <= i < |r| && r[i].deviceId == id
  {
    EntriesAreFound(h.reg.devices);
    assert WellFormed(h.reg) ==> forall i :: 0 <= i < |h.reg.devices| ==>
      Get(h.reg.devices, h.reg.devices[i].key) == Some(h.reg.devices[i].value) by {
      if WellFormed(h.reg) {
        EntriesFoundUnique(h.reg.devices);
      }
    }
    KnownIdsListed(h.reg.devices);
    Views(h.reg.devices)
  }

  /** Every entry's key is found. */
  lemma EntriesAreFound(devices: Devices)
    ensures forall i :: 0 <= i < |devices| ==> Get(devices, devices[i].key).Some?
  {
    forall i | 0 <= i < |devices| ensures Get(devices, devices[i].key).Some? {
      assert Keys(devices)[i] == devices[i].key;
    }
  }

  /** With unique keys, every entry's key finds that entry's value. */
  lemma EntriesFoundUnique(devices: Devices)
    requires UniqueKeys(devices)
    ensures forall i :: 0 <= i < |devices| ==> Get(devices, devices[i].key) == Some(devices[i].value)
  {
  }

  /** Every key that is found sits at some position. */
  lemma KnownIdsListed(devices: Devices)
    ensures forall id :: Get(devices, id).Some? ==> exists i :: 0 <= i < |devices| && devices[i].key == id
  {
    forall id | Get(devices, id).Some? ensures exists i :: 0 <= i < |devices| && devices[i].key == id {
      var i :| 0 <= i < |Keys(devices)| && Keys(devices)[i] == id;
      assert devices[i].key == id;
    }
  }

  /** `GET /api/sleep/session/:deviceId`. */
  function GetSession<A, S>(h: Hub<A, S>, id: DeviceId): (r: Reply<Session<A>>)
    ensures r.Ok? <==> id in h.sessions
    ensures r.Ok? ==> r.value == h.sessions[id]
    ensures !r.Ok? ==> r == NotFound
  {
    if id in h.sessions then Ok(h.sessions[id]) else NotFound
  }

  /** `GET /api/alarm/:deviceId`. */
  function GetAlarm<A, S>(h: Hub<A, S>, id: DeviceId): (r: Reply<S>)
    ensures r.Ok? <==> id in h.alarms
    ensures r.Ok? ==> r.value == h.alarms[id]
    ensures !r.Ok? ==> r == NotFound
  {
    if id in h.alarms then Ok(h.alarms[id]) else NotFound
  }

  /** After `monitoring_started`, the session route shows an empty session
      begun at that moment, for a known device or not, and every other
      device's session reads as before. */
  lemma SessionAfterMonitoringStarted<A, S>(h: Hub<A, S>, now: int, id: DeviceId, other: DeviceId)
    requires other != id
    ensures GetSession(OnMonitoringStarted(h, now, id).hub, id) == Ok(Session(now, [], None))
    ensures GetSession(OnMonitoringStarted(h, now, id).hub, other) == GetSession(h, other)
  {
  }

  /** After `monitoring_stopped` the session route reads as before: the
      samples are kept. */
  lemma SessionSurvivesMonitoringStopped<A, S>(h: Hub<A, S>, id: DeviceId, any: DeviceId)
    ensures GetSession(OnMonitoringStopped(h, id).hub, any) == GetSession(h, any)
  {
  }

  /** After `connected`, the device listing shows the device with the flags
      it announced, even when it replaced an earlier entry. */
  lemma ListedAfterConnect<A, S>(h: Hub<A, S>, now: int, t: TransportId, id: DeviceId, monitoring: bool, alarmActive: bool)
    requires WellFormed(h.reg)
    ensures var r := ListDevices(OnConnected(h, now, t, id, monitoring, alarmActive).hub);
      exists i :: 0 <= i < |r| && r[i] == DeviceView(id, monitoring, alarmActive, now)
  {
    var h' := OnConnected(h, now, t, id, monitoring, alarmActive).hub;
    assert WellFormed(h'.reg);
    assert Lookup(h'.reg, id) == Some(Device(t, now, monitoring, alarmActive));
    var r := ListDevices(h');
    var i :| 0 <= i < |r| && r[i].deviceId == id;
    assert r[i].isMonitoring == monitoring && r[i].alarmActive == alarmActive && r[i].connectedAt == now;
  }

  /** Starting monitoring twice in a row leaves exactly one, empty, session. */
  lemma MonitoringRestartDiscardsSamples<A, S>(h: Hub<A, S>, now1: int, now2: int, id: DeviceId)
    ensures var h2 := OnMonitoringStarted(OnMonitoringStarted(h, now1, id).hub, now2, id).hub;
      id in h2.sessions && h2.sessions[id].samples == [] && h2.sessions[id].startTime == now2
  {
  }
}

=== FILE: legacy_analyzer.dfy ===
/** The `SleepAnalyzer` class of the earlier revision
    (RaspberryPi_Server/server.js): a movement-average stage estimate per
    batch, an eight-hour history of analyses, and the alarm scheduler that
    counts cycles back from the target. */
module LegacyAnalyzer {
  import opened Wrappers
  import opened Protocol
  import opened Scheduler
  import Analyzer

  /** The history keeps analyses newer than eight hours. */
  const EightHoursMs: int := 8 * 60 * 60 * 1000
  /** The scheduler wakes this much before the computed boundary... */
  const ShallowWindowMs: int := 15 * 60 * 1000
  /** ...but never sooner than this after the request. */
  const MinLeadMs: int := 30 * 60 * 1000

  /** One analysis. `movementLevel` is `None` where the program computes
      NaN; `cycleOffsetMs` is the numerator of the reported
      `cyclePosition`, which is `cycleOffsetMs / CycleMs`. */
  datatype Analysis = Analysis(timestamp: int, sleepStage: int, movementLevel: Option<real>, cycleOffsetMs: int)

  /** Every sample carries a numeric movement score. */
  predicate AllScored(batch: seq<Sample>) {
    forall i :: 0 <= i < |batch| ==> batch[i].movement.Some?
  }

  /** `reduce((sum, d) => sum + d.movement_score, acc)`: a missing score
      makes the sum NaN, and NaN absorbs every later addition. */
  function ScoreSum(acc: Option<real>, batch: seq<Sample>): (r: Option<real>)
    ensures r.Some? <==> acc.Some? && AllScored(batch)
    ensures r.Some? ==> r.value == acc.value + Analyzer.TotalMovement(batch)
    decreases |batch|
  {
    if |batch| == 0 then acc
    else
      var next := if acc.Some? && batch[0].movement.Some? then Some(acc.value + batch[0].movement.value) else None;
      ScoreSum(next, batch[1..])
  }

  /** `calculateMovementLevel`: the mean movement score, NaN (`None`) for an
      empty batch (0 / 0) or when any score is missing. */
  function AverageMovement(batch: seq<Sample>): (r: Option<real>)
    ensures r.Some? <==> |batch| > 0 && AllScored(batch)
    ensures r.Some? ==> r.value * (|batch| as real) == Analyzer.TotalMovement(batch)
  {
    if |batch| == 0 then None
    else
      match ScoreSum(Some(0.0), batch)
      case None => None
      case Some(total) => Some(total / (|batch| as real))
  }

  /** `determineSleepStage`: deep (2) below 0.1, light (1) below 0.3, awake
      (0) otherwise; NaN fails both comparisons and reads as awake. */
  function DetermineSleepStage(avg: Option<real>): (r: int)
    ensures 0 <= r <= 2
    ensures r == 2 <==> avg.Some? && avg.value < 0.1
    ensures r == 1 <==> avg.Some? && 0.1 <= avg.value < 0.3
    ensures avg.None? ==> r == 0
  {
    if avg.Some? && avg.value < 0.1 then 2
    else if avg.Some? && avg.value < 0.3 then 1
    else 0
  }

  /** More movement never means deeper sleep. */
  lemma StageNonIncreasing(a: real, b: real)
    requires a <= b
    ensures DetermineSleepStage(Some(b)) <= DetermineSleepStage(Some(a))
  {
  }

  /** JavaScript `a % CycleMs`: the remainder takes the sign of the
      dividend. */
  function JsRemCycle(a: int): (r: int)
    ensures -CycleMs < r < CycleMs
    ensures (a - r) % CycleMs == 0
    ensures a >= 0 ==> 0 <= r
    ensures a <= 0 ==> r <= 0
  {
    if a >= 0 then a % CycleMs
    else
      var q := (-a) / CycleMs;
      assert a + (-a) % CycleMs == -q * CycleMs;
      -((-a) % CycleMs)
  }

  /** `analyzeSleepData` without the history update. */
  function Analyze(batch: seq<Sample>, now: int): (r: Analysis)
    ensures r.timestamp == now
    ensures r.movementLevel.Some? <==> |batch| > 0 && AllScored(batch)
    ensures r.movementLevel.Some? ==> r.movementLevel.value * (|batch| as real) == Analyzer.TotalMovement(batch)
    ensures r.sleepStage == 2 <==> r.movementLevel.Some? && r.movementLevel.value < 0.1
    ensures r.sleepStage == 1 <==> r.movementLevel.Some? && 0.1 <= r.movementLevel.value < 0.3
    ensures r.sleepStage == 0 <==> r.movementLevel.None? || r.movementLevel.value >= 0.3
    ensures now >= 0 ==> 0 <= r.cycleOffsetMs < CycleMs && (now - r.cycleOffsetMs) % CycleMs == 0
  {
    var avg := AverageMovement(batch);
    Analysis(now, DetermineSleepStage(avg), avg, JsRemCycle(now))
  }

  /** `a` can be obtained from `b` by deleting elements. */
  predicate IsSubseq<T(==)>(a: seq<T>, b: seq<T>)
    decreases |b|
  {
    |a| == 0 || (|b| > 0 && if a[0] == b[0] then IsSubseq(a[1..], b[1..]) else IsSubseq(a, b[1..]))
  }

  /** How many times `x` occurs in `s`. */
  function Occurrences<T(==)>(s: seq<T>, x: T): nat {
    if |s| == 0 then 0 else (if s[0] == x then 1 else 0) + Occurrences(s[1..], x)
  }

  /** `filter(cycle => cycle.timestamp > cutoff)`. */
  function Recent(history: seq<Analysis>, cutoff: int): (r: seq<Analysis>)
    ensures forall i :: 0 <= i < |r| ==> r[i].timestamp > cutoff
    ensures IsSubseq(r, history)
    ensures |r| == |history| <==> forall i :: 0 <= i < |history| ==> history[i].timestamp > cutoff
    ensures forall x :: Occurrences(r, x) == if x.timestamp > cutoff then Occurrences(history, x) else 0
    decreases |history|
  {
    if |history| == 0 then []
    else
      var rest := Recent(history[1..], cutoff);
      assert history == [history[0]] + history[1..];
      if history[0].timestamp > cutoff then
        assert ([history[0]] + rest)[1..] == rest;
        [history[0]] + rest
      else
        assert |rest| <= |history[1..]| by { SubseqNoLonger(rest, history[1..]); }
        rest
  }

  /** An analysis is kept exactly when it is in the history and newer than
      the cutoff. */
  lemma RecentMembers(history: seq<Analysis>, cutoff: int)
    ensures forall x :: x in Recent(history, cutoff) <==> x in history && x.timestamp > cutoff
  {
    var r := Recent(history, cutoff);
    forall x ensures x in r <==> x in history && x.timestamp > cutoff {
      OccursIffIn(r, x);
      OccursIffIn(history, x);
    }
  }

  lemma {:induction false} OccursIffIn<T>(s: seq<T>, x: T)
    ensures x in s <==> Occurrences(s, x) > 0
  {
    if |s| > 0 {
      OccursIffIn(s[1..], x);
      assert s == [s[0]] + s[1..];
    }
  }

  lemma {:induction false} SubseqNoLonger<T>(a: seq<T>, b: seq<T>)
    requires IsSubseq(a, b)
    ensures |a| <= |b|
    decreases |b|
  {
    if |a| > 0 {
      if a[0] == b[0] {
        SubseqNoLonger(a[1..], b[1..]);
      } else {
        SubseqNoLonger(a, b[1..]);
      }
    }
  }

  /** Filtering a concatenation filters each part. */
  lemma {:induction false} RecentAppend(a: seq<Analysis>, b: seq<Analysis>, cutoff: int)
    ensures Recent(a + b, cutoff) == Recent(a, cutoff) + Recent(b, cutoff)
    decreases |a|
  {
    if |a| > 0 {
      assert (a + b)[1..] == a[1..] + b;
      RecentAppend(a[1..], b, cutoff);
    } else {
      assert a + b == b;
    }
  }

  /** `updateSleepCycle`: append the new analysis, then drop everything no
      newer than eight hours before `now`. */
  function UpdateSleepCycle(history: seq<Analysis>, analysis: Analysis, now: int): (r: seq<Analysis>)
    ensures forall i :: 0 <= i < |r| ==> r[i].timestamp > now - EightHoursMs
    ensures forall x :: x in r <==> (x in history || x == analysis) && x.timestamp > now - EightHoursMs
    ensures analysis.timestamp > now - EightHoursMs ==>
      |r| > 0 && r[|r| - 1] == analysis && r[..|r| - 1] == Recent(history, now - EightHoursMs)
  {
    var cutoff := now - EightHoursMs;
    RecentAppend(history, [analysis], cutoff);
    RecentMembers(history + [analysis], cutoff);
    assert forall x :: x in history + [analysis] <==> x in history || x == analysis;
    Recent(history + [analysis], cutoff)
  }

  /** `analyzeSleepData`: the analysis of a batch received at `now`, with
      the history it leaves behind. The new analysis is always the newest
      entry kept. */
  function AnalyzeSleepData(history: seq<Analysis>, batch: seq<Sample>, now: int): (r: (Analysis, seq<Analysis>))
    ensures r.0 == Analyze(batch, now)
    ensures |r.1| > 0 && r.1[|r.1| - 1] == r.0
    ensures r.1[..|r.1| - 1] == Recent(history, now - EightHoursMs)
    ensures forall i :: 0 <= i < |r.1| ==> r.1[i].timestamp > now - EightHoursMs
  {
    var a := Analyze(batch, now);
    (a, UpdateSleepCycle(history, a, now))
  }

  /** The scheduler's reply: `shallowSleepWindow` is reported alongside. */
  datatype LegacyCalc = LegacyCalc(optimalWakeTime: int, cyclesToTarget: int, shallowSleepWindow: int, recommendedTime: int)

  function Max(a: int, b: int): int {
    if a >= b then a else b
  }

  /** `calculateOptimalAlarmTime` as written: the number of whole cycles to
      the target is subtracted from the TARGET, which leaves only the
      remainder, so the "optimal" time always lands within one cycle after
      `now`. */
  function CalculateAsWritten(target: int, now: int): (r: LegacyCalc)
    ensures r.cyclesToTarget * CycleMs <= target - now < (r.cyclesToTarget + 1) * CycleMs
    ensures now <= r.optimalWakeTime < now + CycleMs
    ensures (target - r.optimalWakeTime) % CycleMs == 0
    ensures r.shallowSleepWindow == ShallowWindowMs
    ensures r.recommendedTime >= now + MinLeadMs && r.recommendedTime >= r.optimalWakeTime - ShallowWindowMs
    ensures r.recommendedTime == now + MinLeadMs || r.recommendedTime == r.optimalWakeTime - ShallowWindowMs
  {
    var cycles := (target - now) / CycleMs;
    var optimal := target - cycles * CycleMs;
    LegacyCalc(optimal, cycles, ShallowWindowMs, Max(optimal - ShallowWindowMs, now + MinLeadMs))
  }

  /** As written, whatever the target, the alarm is recommended less than
      one cycle after the request. */
  lemma AsWrittenAlarmWithinOneCycle(target: int, now: int)
    ensures CalculateAsWritten(target, now).recommendedTime < now + CycleMs
  {
    var r := CalculateAsWritten(target, now);
    assert r.optimalWakeTime - ShallowWindowMs < now + CycleMs;
  }

  /** As written, a target eight hours away yields an alarm thirty minutes
      from now: five cycles fit, and the remainder is half an hour. */
  lemma AsWrittenEightHourTarget(now: int)
    ensures var r := CalculateAsWritten(now + EightHoursMs, now);
      r.cyclesToTarget == 5 && r.optimalWakeTime == now + 30 * 60 * 1000
      && r.recommendedTime == now + MinLeadMs
  {
    var r := CalculateAsWritten(now + EightHoursMs, now);
    assert EightHoursMs == 5 * CycleMs + 30 * 60 * 1000;
    assert (EightHoursMs) / CycleMs == 5;
  }

  /** The scheduler with the cycles counted forward from `now`: the latest
      cycle boundary after `now` that does not pass the target, woken a
      shallow-sleep window early and at least thirty minutes out. */
  function Calculate(target: int, now: int): (r: LegacyCalc)
    ensures r.cyclesToTarget * CycleMs <= target - now < (r.cyclesToTarget + 1) * CycleMs
    ensures r.optimalWakeTime == Boundary(now, r.cyclesToTarget)
    ensures r.optimalWakeTime <= target < r.optimalWakeTime + CycleMs
    ensures r.shallowSleepWindow == ShallowWindowMs
    ensures r.recommendedTime >= now + MinLeadMs && r.recommendedTime >= r.optimalWakeTime - ShallowWindowMs
    ensures r.recommendedTime == now + MinLeadMs || r.recommendedTime == r.optimalWakeTime - ShallowWindowMs
    ensures target >= now + MinLeadMs ==> r.recommendedTime <= target
  {
    var cycles := (target - now) / CycleMs;
    var optimal := now + cycles * CycleMs;
    LegacyCalc(optimal, cycles, ShallowWindowMs, Max(optimal - ShallowWindowMs, now + MinLeadMs))
  }

  /** Counted forward, the recommendation stays within one cycle and one
      window of the target, however far away the target is. */
  lemma CalculateTracksTarget(target: int, now: int)
    requires target >= now + MinLeadMs
    ensures target - CycleMs - ShallowWindowMs < Calculate(target, now).recommendedTime <= target
  {
  }

  /** Once a whole cycle fits, the forward count picks the same boundary as
      the canonical scheduler started at `now`. */
  lemma CalculateAgreesWithCycleScheduler(target: int, now: int)
    requires target >= now + CycleMs
    ensures var r := Calculate(target, now);
      var c := CalculateOptimalAlarmTime(target, now);
      r.optimalWakeTime == c.optimalWakeTime && r.cyclesToTarget == c.cyclesToTarget
  {
    var r := Calculate(target, now);
    var c := CalculateOptimalAlarmTime(target, now);
    assert IsLatestBoundary(now, target, c.cyclesToTarget);
    SameCycleCount(r.cyclesToTarget, c.cyclesToTarget, target - now);
  }

  /** A span holds one whole number of cycles only. */
  lemma SameCycleCount(a: int, b: int, x: int)
    requires a * CycleMs <= x < (a + 1) * CycleMs
    requires b * CycleMs <= x < (b + 1) * CycleMs
    ensures a == b
  {
    assert (a - b - 1) * CycleMs < 0 && (b - a - 1) * CycleMs < 0;
  }
}

=== FILE: legacy_hub.dfy ===
/** The earlier revision (RaspberryPi_Server/server.js) over the shared hub:
    its device-message handlers and dispatcher, which keep the analyzer's
    eight-hour history and know no `sleep_detected` status, and its HTTP
    routes for the alarm and the light. */
module LegacyHub {
  import opened Wrappers
  import opened Registry
  import opened Protocol
  import opened Hub
  import opened Scheduler
  import opened LegacyAnalyzer

  /** A stored alarm: the request and the scheduler's answer. */
  datatype LegacyAlarm = LegacyAlarm(targetWakeTime: int, optimalWakeTime: int, recommendedTime: int, setAt: int)

  type LHub = Hub<Analysis, LegacyAlarm>

  /** The hub plus the analyzer's history (`sleepCycles`), which the single
      analyzer instance shares across all devices. */
  datatype State = State(hub: LHub, history: seq<Analysis>)

  /** One message handled: the hub step and the history it leaves. */
  datatype Outcome = Outcome(step: Step<Analysis, LegacyAlarm>, history: seq<Analysis>)

  /** The default sunrise length, 15 minutes. */
  const DefaultSunriseMs: real := 900000.0
  /** The brightness scale's top. */
  const FullLevel: real := 100.0

  /** What the forward-counting scheduler leaves in every stored alarm. */
  ghost predicate AlarmConsistent(a: LegacyAlarm) {
    && a.optimalWakeTime == Boundary(a.setAt, (a.optimalWakeTime - a.setAt) / CycleMs)
    && a.optimalWakeTime <= a.targetWakeTime < a.optimalWakeTime + CycleMs
    && a.recommendedTime >= a.setAt + MinLeadMs
    && a.recommendedTime >= a.optimalWakeTime - ShallowWindowMs
    && (a.targetWakeTime >= a.setAt + MinLeadMs ==> a.recommendedTime <= a.targetWakeTime)
  }

  ghost predicate ValidHub(h: LHub) {
    && WellFormed(h.reg)
    && forall id :: id in h.alarms ==> AlarmConsistent(h.alarms[id])
  }

  ghost predicate Valid(s: State) {
    ValidHub(s.hub)
  }

  lemma InitialValid()
    ensures Valid(State(Hub(NoConnections, map[], map[]), []))
  {
  }

  /** A shared-hub step that leaves the history alone. */
  function Keep(s: State, st: Step<Analysis, LegacyAlarm>): (r: Outcome)
    ensures r.step == st && r.history == s.history
  {
    Outcome(st, s.history)
  }

  /** `b` runs after `a`; frames go out in that order. */
  function ThenOutcome(a: Outcome, b: Outcome): (r: Outcome)
    ensures r.step == Then(a.step, b.step) && r.history == b.history
  {
    Outcome(Then(a.step, b.step), b.history)
  }

  /** The hub side of `handleSleepData`: append the batch to the session
      (created lazily), record `analysis` and broadcast it. */
  function SleepDataStep(h: LHub, now: int, id: DeviceId, batch: seq<Sample>, analysis: Analysis)
    : (r: Step<Analysis, LegacyAlarm>)
    ensures r.hub.reg == h.reg && r.hub.alarms == h.alarms
    ensures id in r.hub.sessions
    ensures r.hub.sessions[id].samples == SamplesOf(h.sessions, id) + batch
    ensures r.hub.sessions[id].lastAnalysis == Some(analysis)
    ensures forall other :: other != id ==>
      (other in r.hub.sessions <==> other in h.sessions) &&
      (other in h.sessions ==> r.hub.sessions[other] == h.sessions[other])
    ensures r.commands == []
    ensures forall d :: d in r.broadcasts ==> d.msg == SleepDataEvent(id, analysis, now)
    ensures forall u :: IsObserver(h.reg, u) ==> Delivery(u, SleepDataEvent(id, analysis, now)) in r.broadcasts
    ensures WellRouted(r)
  {
    var hub := Ingest(h, now, id, batch, analysis);
    Step(hub, [], Broadcast(hub.reg, SleepDataEvent(id, analysis, now)))
  }

  /** `handleSleepData`: the batch is analysed at `now`, the analysis joins
      the history, and the hub records and broadcasts it. */
  function OnSleepData(s: State, now: int, id: DeviceId, batch: seq<Sample>): (r: Outcome)
    ensures r.step == SleepDataStep(s.hub, now, id, batch, Analyze(batch, now))
    ensures |r.history| > 0 && r.history[|r.history| - 1] == Analyze(batch, now)
    ensures r.history[..|r.history| - 1] == Recent(s.history, now - EightHoursMs)
    ensures forall i :: 0 <= i < |r.history| ==> r.history[i].timestamp > now - EightHoursMs
  {
    var analysis := Analyze(batch, now);
    var history := UpdateSleepCycle(s.history, analysis, now);
    assert history[..|history| - 1] == Recent(s.history, now - EightHoursMs);
    Outcome(SleepDataStep(s.hub, now, id, batch, analysis), history)
  }

  /** `handleAlarmTriggered`: observers are told; nothing is sent to the
      device and nothing changes. */
  function OnAlarmTriggered(s: State, now: int, id: DeviceId): (r: Outcome)
    ensures r.step.hub == s.hub && r.history == s.history
    ensures r.step.commands == []
    ensures forall d :: d in r.step.broadcasts ==> d.msg == AlarmTriggeredEvent(id, now)
    ensures forall u :: IsObserver(s.hub.reg, u) ==> Delivery(u, AlarmTriggeredEvent(id, now)) in r.step.broadcasts
    ensures WellRouted(r.step)
  {
    Keep(s, Step(s.hub, [], Broadcast(s.hub.reg, AlarmTriggeredEvent(id, now))))
  }

  /** The `status` switch. This revision has no `sleep_detected` case. */
  function OnStatus(s: State, now: int, t: TransportId, m: Message): (r: Outcome)
    ensures r.history == s.history
    ensures WellRouted(r.step)
    ensures Valid(s) ==> ValidHub(r.step.hub)
    ensures r.step.commands == []
    ensures r.step.hub.alarms == s.hub.alarms
    ensures !m.status.ConnectedStatus? ==> r.step.hub.reg.clients == s.hub.reg.clients
    ensures Valid(s) && !m.status.ConnectedStatus? ==>
      forall u :: IsDeviceTransport(r.step.hub.reg, u) <==> IsDeviceTransport(s.hub.reg, u)
    ensures m.status.NoStatus? || m.status.OtherStatus? || m.status.SleepDetectedStatus? ==> r.step == Quiet(s.hub)
    ensures m.status.ConnectedStatus? ==> r == Keep(s, OnConnected(s.hub, now, t, m.deviceId, m.monitoring, m.alarmActive))
    ensures m.status.MonitoringStartedStatus? ==> r == Keep(s, OnMonitoringStarted(s.hub, now, m.deviceId))
    ensures m.status.MonitoringStoppedStatus? ==> r == Keep(s, OnMonitoringStopped(s.hub, m.deviceId))
    ensures m.status.AlarmTriggeredStatus? ==> r == OnAlarmTriggered(s, now, m.deviceId)
  {
    match m.status
    case ConnectedStatus => Keep(s, OnConnected(s.hub, now, t, m.deviceId, m.monitoring, m.alarmActive))
    case MonitoringStartedStatus => Keep(s, OnMonitoringStarted(s.hub, now, m.deviceId))
    case MonitoringStoppedStatus => Keep(s, OnMonitoringStopped(s.hub, m.deviceId))
    case AlarmTriggeredStatus => OnAlarmTriggered(s, now, m.deviceId)
    case _ => Keep(s, Quiet(s.hub))
  }

  /** A `sleep_data` frame with an array batch: the sleep-data handler,
      then the status switch on the state it leaves. */
  function SleepFrame(s: State, now: int, t: TransportId, m: Message, batch: seq<Sample>): (r: Outcome)
    ensures var first := OnSleepData(s, now, m.deviceId, batch);
      r == ThenOutcome(first, OnStatus(State(first.step.hub, first.history), now, t, m))
    ensures Valid(s) ==> ValidHub(r.step.hub)
    ensures r.step.commands == []
    ensures r.step.hub.alarms == s.hub.alarms
    ensures Valid(s) && !m.status.ConnectedStatus? ==> WellRouted(r.step)
  {
    var first := OnSleepData(s, now, m.deviceId, batch);
    var mid := State(first.step.hub, first.history);
    var rest := OnStatus(mid, now, t, m);
    assert mid.hub.reg == s.hub.reg && mid.hub.alarms == s.hub.alarms;
    assert Valid(s) ==> Valid(mid);
    assert Valid(s) && !m.status.ConnectedStatus? ==> WellRouted(Then(first.step, rest.step)) by {
      if Valid(s) && !m.status.ConnectedStatus? {
        ThenKeepsRouting(first.step, rest.step, mid.hub.reg);
      }
    }
    ThenOutcome(first, rest)
  }

  /** `handleWebSocketMessage` with the listener around it. As in the
      canonical revision, `device_status` calls an undefined handler: with
      `statusHandled` false the throw ends the handling (as written), with
      `statusHandled` true the status switch still runs. A `sleep_data`
      frame whose `data` is not an array creates the session and then
      throws, before the analyzer runs. */
  function DispatchWith(s: State, now: int, t: TransportId, frame: Frame, statusHandled: bool): (r: Outcome)
    ensures frame.Malformed? ==> r == Keep(s, Quiet(s.hub))
    ensures frame.Parsed? && frame.msg.dataType == SleepDataType(None) ==>
      r == Keep(s, Quiet(s.hub.(sessions := EnsureSession(s.hub.sessions, frame.msg.deviceId, now))))
    ensures frame.Parsed? && frame.msg.dataType.SleepDataType? && frame.msg.dataType.batch.Some? ==>
      var first := OnSleepData(s, now, frame.msg.deviceId, frame.msg.dataType.batch.value);
      r == ThenOutcome(first, OnStatus(State(first.step.hub, first.history), now, t, frame.msg))
    ensures frame.Parsed? && frame.msg.dataType.DeviceStatusType? ==>
      r == if statusHandled then OnStatus(s, now, t, frame.msg) else Keep(s, Quiet(s.hub))
    ensures frame.Parsed? && frame.msg.dataType.OtherDataType? ==> r == OnStatus(s, now, t, frame.msg)
    ensures Valid(s) ==> ValidHub(r.step.hub)
    ensures r.step.commands == []
    ensures r.step.hub.alarms == s.hub.alarms
    ensures !(frame.Parsed? && frame.msg.dataType.SleepDataType? && frame.msg.dataType.batch.Some?) ==>
      r.history == s.history
    ensures Valid(s) && frame.Parsed? && !frame.msg.status.ConnectedStatus? ==> WellRouted(r.step)
  {
    match frame
    case Malformed => Keep(s, Quiet(s.hub))
    case Parsed(m) =>
      match m.dataType
      case SleepDataType(None) =>
        Keep(s, Quiet(s.hub.(sessions := EnsureSession(s.hub.sessions, m.deviceId, now))))
      case SleepDataType(Some(batch)) => SleepFrame(s, now, t, m, batch)
      case DeviceStatusType =>
        if statusHandled then OnStatus(s, now, t, m) else Keep(s, Quiet(s.hub))
      case OtherDataType => OnStatus(s, now, t, m)
  }

  /** The dispatcher as written: every `device_status` frame is dropped. */
  function Dispatch(s: State, now: int, t: TransportId, frame: Frame): (r: Outcome)
    ensures frame.Malformed? ==> r == Keep(s, Quiet(s.hub))
    ensures frame.Parsed? && frame.msg.dataType.DeviceStatusType? ==> r == Keep(s, Quiet(s.hub))
    ensures frame.Parsed? && frame.msg.dataType.SleepDataType? && frame.msg.dataType.batch.Some? ==>
      var first := OnSleepData(s, now, frame.msg.deviceId, frame.msg.dataType.batch.value);
      r == ThenOutcome(first, OnStatus(State(first.step.hub, first.history), now, t, frame.msg))
    ensures frame.Parsed? && frame.msg.dataType.OtherDataType? ==> r == OnStatus(s, now, t, frame.msg)
    ensures Valid(s) ==> ValidHub(r.step.hub)
    ensures Valid(s) && frame.Parsed? && !frame.msg.status.ConnectedStatus? ==> WellRouted(r.step)
  {
    DispatchWith(s, now, t, frame, false)
  }

  /** The dispatcher with `handleDeviceStatus` taken as a no-op, after
      which the status switch runs as for any other frame. */
  function DispatchRepaired(s: State, now: int, t: TransportId, frame: Frame): (r: Outcome)
    ensures frame.Malformed? ==> r == Keep(s, Quiet(s.hub))
    ensures frame.Parsed? && frame.msg.dataType.DeviceStatusType? ==> r == OnStatus(s, now, t, frame.msg)
    ensures frame.Parsed? && frame.msg.dataType.SleepDataType? && frame.msg.dataType.batch.Some? ==>
      var first := OnSleepData(s, now, frame.msg.deviceId, frame.msg.dataType.batch.value);
      r == ThenOutcome(first, OnStatus(State(first.step.hub, first.history), now, t, frame.msg))
    ensures frame.Parsed? && frame.msg.dataType.OtherDataType? ==> r == OnStatus(s, now, t, frame.msg)
    ensures Valid(s) ==> ValidHub(r.step.hub)
    ensures Valid(s) && frame.Parsed? && !frame.msg.status.ConnectedStatus? ==> WellRouted(r.step)
  {
    DispatchWith(s, now, t, frame, true)
  }

  /** This revision has no `sleep_detected` case: such a frame changes
      nothing and sends nothing. */
  lemma SleepDetectedFrameIgnored(s: State, now: int, t: TransportId, id: DeviceId)
    ensures var m := Message(id, OtherDataType, SleepDetectedStatus, false, false);
      var r := Dispatch(s, now, t, Parsed(m));
      r.step == Quiet(s.hub) && r.history == s.history
  {
  }

  /** An `alarm_triggered` frame tells every observer and sends nothing to
      the device. */
  lemma AlarmTriggeredFrameNotifies(s: State, now: int, t: TransportId, id: DeviceId)
    ensures var m := Message(id, OtherDataType, AlarmTriggeredStatus, false, false);
      var r := Dispatch(s, now, t, Parsed(m));
      && r.step.hub == s.hub && r.step.commands == []
      && forall u :: IsObserver(s.hub.reg, u) ==> Delivery(u, AlarmTriggeredEvent(id, now)) in r.step.broadcasts
  {
  }

  /** A `sleep_data` frame with no status appends its batch to the device's
      session and its analysis to the shared history. */
  lemma SleepDataFrameIsRecorded(s: State, now: int, t: TransportId, id: DeviceId, batch: seq<Sample>)
    ensures var m := Message(id, SleepDataType(Some(batch)), NoStatus, false, false);
      var r := Dispatch(s, now, t, Parsed(m));
      var got := GetSession(r.step.hub, id);
      && got.Ok? && got.value.samples == SamplesOf(s.hub.sessions, id) + batch
      && |r.history| > 0 && r.history[|r.history| - 1] == Analyze(batch, now)
  {
  }

  /** As written, a `device_status` frame announcing a connection leaves
      the device unregistered. */
  lemma DeviceStatusConnectIsLost(s: State, now: int, t: TransportId, id: DeviceId)
    requires Lookup(s.hub.reg, id).None?
    ensures var m := Message(id, DeviceStatusType, ConnectedStatus, false, false);
      Lookup(Dispatch(s, now, t, Parsed(m)).step.hub.reg, id).None?
  {
  }

  /** Repaired, the same frame registers the device on its transport. */
  lemma DeviceStatusConnectRegisters(s: State, now: int, t: TransportId, id: DeviceId)
    ensures var m := Message(id, DeviceStatusType, ConnectedStatus, false, false);
      Lookup(DispatchRepaired(s, now, t, Parsed(m)).step.hub.reg, id) == Some(Device(t, now, false, false))
  {
  }

  /** The part of `POST /api/alarm/set` after validation: store the request
      with the scheduler's answer `plan` and send `set_alarm` to an open
      device. */
  function StoreAlarm(h: LHub, now: int, target: int, id: DeviceId, plan: LegacyCalc): (r: ApiStep<Analysis, LegacyAlarm, LegacyCalc>)
    ensures r.reply == Ok(plan)
    ensures r.hub.reg == h.reg && r.hub.sessions == h.sessions
    ensures id in r.hub.alarms
    ensures r.hub.alarms[id] == LegacyAlarm(target, plan.optimalWakeTime, plan.recommendedTime, now)
    ensures forall other :: other != id ==>
      (other in r.hub.alarms <==> other in h.alarms) &&
      (other in h.alarms ==> r.hub.alarms[other] == h.alarms[other])
    ensures r.commands != [] <==> Lookup(h.reg, id).Some? && IsOpen(h.reg, Lookup(h.reg, id).value.transport)
    ensures |r.commands| <= 1
    ensures forall d :: d in r.commands ==>
      Lookup(h.reg, id).Some? && d == Delivery(Lookup(h.reg, id).value.transport, SetAlarmAt(plan.recommendedTime, target))
  {
    var hub := h.(alarms := h.alarms[id := LegacyAlarm(target, plan.optimalWakeTime, plan.recommendedTime, now)]);
    ApiStep(hub, Ok(plan), SendTo(h.reg, id, SetAlarmAt(plan.recommendedTime, target)))
  }

  /** `targetWakeTime` is falsy: absent, null or 0. */
  predicate MissingTarget(target: Option<int>) {
    target.None? || target.value == 0
  }

  /** `POST /api/alarm/set` as written, with the backward-counting scheduler. */
  function SetAlarmAsWritten(h: LHub, now: int, target: Option<int>, id: RawId): (r: ApiStep<Analysis, LegacyAlarm, LegacyCalc>)
    ensures r.reply.Ok? || r.reply.ValidationError?
    ensures r.reply.ValidationError? <==> MissingId(id) || MissingTarget(target)
    ensures r.reply.ValidationError? ==> r.hub == h && r.commands == []
    ensures r.reply.Ok? ==>
      var plan := r.reply.value;
      && id.Id? && target.Some?
      && plan == CalculateAsWritten(target.value, now)
      && r.hub.reg == h.reg && r.hub.sessions == h.sessions
      && id.s in r.hub.alarms
      && r.hub.alarms[id.s] == LegacyAlarm(target.value, plan.optimalWakeTime, plan.recommendedTime, now)
      && (forall other :: other != id.s ==>
            (other in r.hub.alarms <==> other in h.alarms) &&
            (other in h.alarms ==> r.hub.alarms[other] == h.alarms[other]))
      && now + MinLeadMs <= plan.recommendedTime < now + CycleMs
      && (r.commands != [] <==> Lookup(h.reg, id.s).Some? && IsOpen(h.reg, Lookup(h.reg, id.s).value.transport))
      && |r.commands| <= 1
      && (forall d :: d in r.commands ==>
            Lookup(h.reg, id.s).Some? && d == Delivery(Lookup(h.reg, id.s).value.transport, SetAlarmAt(plan.recommendedTime, target.value)))
  {
    if MissingId(id) || MissingTarget(target) then ApiStep(h, ValidationError, [])
    else
      AsWrittenAlarmWithinOneCycle(target.value, now);
      StoreAlarm(h, now, target.value, id.s, CalculateAsWritten(target.value, now))
  }

  /** `POST /api/alarm/set` with the forward-counting scheduler: a missing
      id or target is rejected with nothing changed; otherwise the alarm is
      stored whether or not the device is connected, an open device is sent
      the recommendation, and the plan is returned. */
  function SetAlarm(h: LHub, now: int, target: Option<int>, id: RawId): (r: ApiStep<Analysis, LegacyAlarm, LegacyCalc>)
    ensures r.reply.Ok? || r.reply.ValidationError?
    ensures r.reply.ValidationError? <==> MissingId(id) || MissingTarget(target)
    ensures r.reply.ValidationError? ==> r.hub == h && r.commands == []
    ensures r.reply.Ok? ==>
      var plan := r.reply.value;
      && id.Id? && target.Some?
      && plan == Calculate(target.value, now)
      && r.hub.reg == h.reg && r.hub.sessions == h.sessions
      && id.s in r.hub.alarms
      && r.hub.alarms[id.s] == LegacyAlarm(target.value, plan.optimalWakeTime, plan.recommendedTime, now)
      && (forall other :: other != id.s ==>
            (other in r.hub.alarms <==> other in h.alarms) &&
            (other in h.alarms ==> r.hub.alarms[other] == h.alarms[other]))
      && plan.optimalWakeTime <= target.value < plan.optimalWakeTime + CycleMs
      && plan.recommendedTime >= now + MinLeadMs
      && (target.value >= now + MinLeadMs ==> plan.recommendedTime <= target.value)
      && (r.commands != [] <==> Lookup(h.reg, id.s).Some? && IsOpen(h.reg, Lookup(h.reg, id.s).value.transport))
      && |r.commands| <= 1
      && (forall d :: d in r.commands ==>
            Lookup(h.reg, id.s).Some? && d == Delivery(Lookup(h.reg, id.s).value.transport, SetAlarmAt(plan.recommendedTime, target.value)))
    ensures ValidHub(h) ==> ValidHub(r.hub)
  {
    if MissingId(id) || MissingTarget(target) then ApiStep(h, ValidationError, [])
    else
      var plan := Calculate(target.value, now);
      assert (plan.optimalWakeTime - now) / CycleMs == plan.cyclesToTarget;
      StoreAlarm(h, now, target.value, id.s, plan)
  }

  /** As written, an alarm set for eight hours ahead is scheduled thirty
      minutes ahead. */
  lemma AsWrittenEightHourAlarmFiresEarly(h: LHub, now: int, id: DeviceId)
    requires id != "" && now >= 0
    ensures var r := SetAlarmAsWritten(h, now, Some(now + EightHoursMs), Id(id));
      r.reply.Ok? && r.hub.alarms[id].recommendedTime == now + MinLeadMs
  {
    assert !MissingId(Id(id)) && !MissingTarget(Some(now + EightHoursMs));
    AsWrittenEightHourTarget(now);
  }

  /** With the forward count, the same alarm is scheduled on the last cycle
      boundary before the target: five cycles (7.5 hours) out, less the
      shallow-sleep window. */
  lemma EightHourAlarmFollowsTarget(h: LHub, now: int, id: DeviceId)
    requires id != "" && now >= 0
    ensures var r := SetAlarm(h, now, Some(now + EightHoursMs), Id(id));
      r.reply.Ok? && r.hub.alarms[id].recommendedTime == now + 5 * CycleMs - ShallowWindowMs
  {
    assert !MissingId(Id(id)) && !MissingTarget(Some(now + EightHoursMs));
    assert EightHoursMs == 5 * CycleMs + 30 * 60 * 1000;
    assert EightHoursMs / CycleMs == 5;
  }

  /** The light routes' shared shape: an invalid body is rejected, then a
      device that is unknown or whose transport is not open is reported as
      not found; otherwise `cmd` is sent and echoed in the reply. */
  function LightCommand(h: LHub, valid: bool, id: RawId, cmd: Command): (r: ApiStep<Analysis, LegacyAlarm, Command>)
    ensures r.hub == h
    ensures !r.reply.Unavailable?
    ensures r.reply.ValidationError? <==> !valid
    ensures r.reply.Ok? <==> valid && Resolve(h.reg, id).Some? && IsOpen(h.reg, Resolve(h.reg, id).value.transport)
    ensures r.reply.Ok? ==> r.reply.value == cmd && r.commands == [Delivery(Resolve(h.reg, id).value.transport, cmd)]
    ensures !r.reply.Ok? ==> r.commands == []
  {
    if !valid then ApiStep(h, ValidationError, [])
    else match Resolve(h.reg, id)
      case None => ApiStep(h, NotFound, [])
      case Some(dev) =>
        if IsOpen(h.reg, dev.transport) then ApiStep(h, Ok(cmd), [Delivery(dev.transport, cmd)])
        else ApiStep(h, NotFound, [])
  }

  /** `Number(x)` of a field that is present. */
  function ToNumber(f: NumField): (r: JsNumber)
    ensures r.Finite? <==> f.Num?
    ensures f.Num? ==> r.v == f.v
  {
    match f
    case Num(v) => Finite(v)
    case _ => NaN
  }

  /** `Number(x || d)`: a falsy field (absent or 0) gives `d`. */
  function NumberOr(f: NumField, d: real): (r: JsNumber)
    ensures f.Absent? || f == Num(0.0) ==> r == Finite(d)
    ensures f.Num? && f.v != 0.0 ==> r == Finite(f.v)
    ensures f.NotNumeric? ==> r.NaN?
  {
    if f.Absent? || f == Num(0.0) then Finite(d) else ToNumber(f)
  }

  /** `Math.max(0, Math.min(100, x))`: NaN passes both comparisons through. */
  function Clamp(x: JsNumber): (r: JsNumber)
    ensures r.NaN? <==> x.NaN?
    ensures r.Finite? ==> 0.0 <= r.v <= FullLevel
    ensures x.Finite? && 0.0 <= x.v <= FullLevel ==> r == x
    ensures x.Finite? && x.v < 0.0 ==> r == Finite(0.0)
    ensures x.Finite? && x.v > FullLevel ==> r == Finite(FullLevel)
  {
    match x
    case NaN => NaN
    case Finite(v) => Finite(if v > FullLevel then FullLevel else if v < 0.0 then 0.0 else v)
  }

  /** `POST /api/light/brightness` as written: only a null or absent id or
      level is rejected, so a non-numeric level makes the command's level NaN,
      which `JSON.stringify` writes as `null`. */
  function BrightnessAsWritten(h: LHub, id: RawId, level: NumField): (r: ApiStep<Analysis, LegacyAlarm, Command>)
    ensures r.hub == h
    ensures r.reply.ValidationError? <==> !id.Id? || level.Absent?
    ensures r.reply.Ok? ==> r.reply.value == SetBrightness(Clamp(ToNumber(level)))
    ensures r.reply.Ok? && level.NotNumeric? ==> r.reply.value.brightness.NaN?
    ensures r.reply.Ok? <==> (id.Id? && !level.Absent?) && Online(h, id)
    ensures r.reply.NotFound? <==> (id.Id? && !level.Absent?) && !Online(h, id)
    ensures r.reply.Ok? ==> r.commands == [Delivery(Resolve(h.reg, id).value.transport, r.reply.value)]
    ensures r.commands != [] <==> r.reply.Ok?
  {
    LightCommand(h, id.Id? && !level.Absent?, id, SetBrightness(Clamp(ToNumber(level))))
  }

  /** `POST /api/light/brightness` with a non-numeric level rejected as
      well: every level sent lies in [0, 100]. */
  function Brightness(h: LHub, id: RawId, level: NumField): (r: ApiStep<Analysis, LegacyAlarm, Command>)
    ensures r.hub == h
    ensures r.reply.ValidationError? <==> !id.Id? || !level.Num?
    ensures r.reply.Ok? ==>
      level.Num? && r.reply.value.SetBrightness? && r.reply.value.brightness.Finite?
      && 0.0 <= r.reply.value.brightness.v <= FullLevel
      && (0.0 <= level.v <= FullLevel ==> r.reply.value.brightness.v == level.v)
    ensures r.reply.Ok? <==> (id.Id? && level.Num?) && Online(h, id)
    ensures r.reply.NotFound? <==> (id.Id? && level.Num?) && !Online(h, id)
    ensures r.reply.Ok? ==> r.commands == [Delivery(Resolve(h.reg, id).value.transport, r.reply.value)]
    ensures r.commands != [] <==> r.reply.Ok?
  {
    LightCommand(h, id.Id? && level.Num?, id, SetBrightness(Clamp(ToNumber(level))))
  }

  /** As written, a non-numeric level makes the command's level NaN. */
  lemma AsWrittenBrightnessSendsNaN(h: LHub, id: DeviceId)
    requires Lookup(h.reg, id).Some? && IsOpen(h.reg, Lookup(h.reg, id).value.transport)
    ensures BrightnessAsWritten(h, Id(id), NotNumeric).reply == Ok(SetBrightness(NaN))
    ensures Brightness(h, Id(id), NotNumeric).reply == ValidationError
  {
  }

  /** `POST /api/light/sunrise` as written: a falsy duration or level takes
      its default (so a requested level of 0 becomes 100), and a
      non-numeric one makes that command field NaN. */
  function SunriseAsWritten(h: LHub, id: RawId, duration: NumField, level: NumField): (r: ApiStep<Analysis, LegacyAlarm, Command>)
    ensures r.hub == h
    ensures r.reply.ValidationError? <==> MissingId(id)
    ensures r.reply.Ok? ==> r.reply.value == SunriseStart(NumberOr(duration, DefaultSunriseMs), Clamp(NumberOr(level, FullLevel)))
    ensures r.reply.Ok? && (level.Absent? || level == Num(0.0)) ==> r.reply.value.targetLevel == Finite(FullLevel)
    ensures r.reply.Ok? && (duration.NotNumeric? || level.NotNumeric?) ==>
      r.reply.value.durationMs.NaN? || r.reply.value.targetLevel.NaN?
    ensures r.reply.Ok? <==> !MissingId(id) && Online(h, id)
    ensures r.reply.NotFound? <==> !MissingId(id) && !Online(h, id)
    ensures r.reply.Ok? ==> r.commands == [Delivery(Resolve(h.reg, id).value.transport, r.reply.value)]
    ensures r.commands != [] <==> r.reply.Ok?
  {
    LightCommand(h, !MissingId(id), id, SunriseStart(NumberOr(duration, DefaultSunriseMs), Clamp(NumberOr(level, FullLevel))))
  }

  /** `POST /api/light/sunrise` with non-numeric fields rejected: the
      duration and level sent are numbers, the level in [0, 100]. */
  function Sunrise(h: LHub, id: RawId, duration: NumField, level: NumField): (r: ApiStep<Analysis, LegacyAlarm, Command>)
    ensures r.hub == h
    ensures r.reply.ValidationError? <==> MissingId(id) || duration.NotNumeric? || level.NotNumeric?
    ensures r.reply.Ok? ==>
      r.reply.value.SunriseStart?
      && r.reply.value.durationMs.Finite? && r.reply.value.targetLevel.Finite?
      && 0.0 <= r.reply.value.targetLevel.v <= FullLevel
      && (duration.Absent? || duration == Num(0.0) ==> r.reply.value.durationMs.v == DefaultSunriseMs)
      && (duration.Num? && duration.v != 0.0 ==> r.reply.value.durationMs.v == duration.v)
      && (level.Absent? || level == Num(0.0) ==> r.reply.value.targetLevel.v == FullLevel)
      && (level.Num? && level.v != 0.0 && 0.0 <= level.v <= FullLevel ==> r.reply.value.targetLevel.v == level.v)
      && (level.Num? && level.v > FullLevel ==> r.reply.value.targetLevel.v == FullLevel)
      && (level.Num? && level.v < 0.0 ==> r.reply.value.targetLevel.v == 0.0)
    ensures r.reply.Ok? <==> (!MissingId(id) && !duration.NotNumeric? && !level.NotNumeric?) && Online(h, id)
    ensures r.reply.NotFound? <==> (!MissingId(id) && !duration.NotNumeric? && !level.NotNumeric?) && !Online(h, id)
    ensures r.reply.Ok? ==> r.commands == [Delivery(Resolve(h.reg, id).value.transport, r.reply.value)]
    ensures r.commands != [] <==> r.reply.Ok?
  {
    var valid := !MissingId(id) && !duration.NotNumeric? && !level.NotNumeric?;
    LightCommand(h, valid, id, SunriseStart(NumberOr(duration, DefaultSunriseMs), Clamp(NumberOr(level, FullLevel))))
  }

  /** As written, a non-numeric target level makes the command's level NaN. */
  lemma AsWrittenSunriseSendsNaN(h: LHub, id: DeviceId)
    requires id != ""
    requires Lookup(h.reg, id).Some? && IsOpen(h.reg, Lookup(h.reg, id).value.transport)
    ensures SunriseAsWritten(h, Id(id), Absent, NotNumeric).reply == Ok(SunriseStart(Finite(DefaultSunriseMs), NaN))
    ensures Sunrise(h, Id(id), Absent, NotNumeric).reply == ValidationError
  {
  }

  /** `POST /api/light/sunrise/cancel`: checked and sent like the other
      light routes, but success is acknowledged without echoing the command. */
  function SunriseCancelRoute(h: LHub, id: RawId): (r: ApiStep<Analysis, LegacyAlarm, ()>)
    ensures r.hub == h
    ensures !r.reply.Unavailable?
    ensures r.reply.ValidationError? <==> MissingId(id)
    ensures r.reply.Ok? <==> !MissingId(id) && Lookup(h.reg, id.s).Some? && IsOpen(h.reg, Lookup(h.reg, id.s).value.transport)
    ensures r.reply.NotFound? <==> !MissingId(id) && !Online(h, id)
    ensures r.reply.Ok? ==> r.commands == [Delivery(Resolve(h.reg, id).value.transport, SunriseCancel)]
    ensures r.commands != [] <==> r.reply.Ok?
  {
    var sent := LightCommand(h, !MissingId(id), id, SunriseCancel);
    var reply: Reply<()> := match sent.reply
      case Ok(_) => Ok(())
      case ValidationError => ValidationError
      case NotFound => NotFound
      case Unavailable => Unavailable;
    ApiStep(h, reply, sent.commands)
  }
}

=== FILE: orchestrator.dfy ===
/** The canonical revision's device-message side: sleep-data ingest,
    sleep detection, alarm triggering and the message dispatcher, over the
    shared hub with the canonical analysis and alarm setting. */
module Orchestrator {
  import opened Wrappers
  import opened OrderedMap
  import opened Registry
  import opened Protocol
  import opened Hub
  import opened Scheduler
  import opened Analyzer

  /** A stored alarm. The computed fields stay `None` until sleep is detected. */
  datatype AlarmSetting = AlarmSetting(
    targetWakeTime: int,
    optimalWakeTime: Option<int>,
    recommendedTime: Option<int>,
    setAt: int,
    sleepDetected: bool,
    pattern: int,
    maxBright: int,
    intervalMs: int,
    sleepStartTime: Option<int>,
    sleepDetectedAt: Option<int>)

  type State = Hub<Snapshot, AlarmSetting>
  type Outcome = Step<Snapshot, AlarmSetting>

  /** The floor under the `delay_ms` sent with `set_alarm`. */
  const MinDelayMs: int := 1000
  /** The dimming step period used when a request gives none or too small a one. */
  const DefaultIntervalMs: int := 4000
  /** The smallest dimming step period a request may choose. */
  const MinIntervalMs: int := 200

  /** What every stored alarm satisfies: the dimming parameters are usable
      as stored, and once sleep was detected the recommendation does not
      pass the target and is the target itself or a cycle boundary counted
      from the detected sleep start. */
  ghost predicate SettingConsistent(s: AlarmSetting) {
    && s.pattern != 0
    && s.maxBright != 0
    && (s.intervalMs == DefaultIntervalMs || s.intervalMs >= MinIntervalMs)
    && (s.recommendedTime.Some? <==> s.sleepDetected)
    && (s.sleepDetected ==>
          && s.sleepStartTime.Some?
          && s.optimalWakeTime == s.recommendedTime
          && s.recommendedTime.value <= s.targetWakeTime
          && (s.recommendedTime.value == s.targetWakeTime ||
              OnCycleBoundary(s.sleepStartTime.value, s.recommendedTime.value)))
  }

  ghost predicate Valid(h: State) {
    && WellFormed(h.reg)
    && forall id :: id in h.alarms ==> SettingConsistent(h.alarms[id])
  }

  /** The hub before any connection. */
  const Initial: State := Hub(NoConnections, map[], map[])

  lemma InitialValid()
    ensures Valid(Initial)
  {
  }

  /** `delayMs` of `handleSleepDetected`: the time until the recommendation,
      but never less than the floor. */
  function AlarmDelay(recommended: int, now: int): (d: int)
    ensures d >= MinDelayMs && d >= recommended - now
    ensures d == recommended - now || (d == MinDelayMs && recommended - now < MinDelayMs)
  {
    var delay := recommended - now;
    if delay < MinDelayMs then MinDelayMs else delay
  }

  /** `handleSleepData`: append the batch to the (lazily created) session,
      store its analysis, and broadcast it. */
  function OnSleepData(h: State, now: int, id: DeviceId, batch: seq<Sample>): (r: Outcome)
    ensures r.hub.reg == h.reg && r.hub.alarms == h.alarms
    ensures id in r.hub.sessions
    ensures r.hub.sessions[id].samples == SamplesOf(h.sessions, id) + batch
    ensures r.hub.sessions[id].lastAnalysis == Some(Analyze(Some(batch)))
    ensures forall other :: other != id ==>
      (other in r.hub.sessions <==> other in h.sessions) &&
      (other in h.sessions ==> r.hub.sessions[other] == h.sessions[other])
    ensures r.commands == []
    ensures forall d :: d in r.broadcasts ==> d.msg == SleepDataEvent(id, Analyze(Some(batch)), now)
    ensures forall u :: IsObserver(h.reg, u) ==> Delivery(u, SleepDataEvent(id, Analyze(Some(batch)), now)) in r.broadcasts
    ensures WellRouted(r)
    ensures Valid(h) ==> Valid(r.hub)
  {
    var analysis := Analyze(Some(batch));
    var hub := Ingest(h, now, id, batch, analysis);
    Step(hub, [], Broadcast(hub.reg, SleepDataEvent(id, analysis, now)))
  }

  /** The setting once sleep is detected at `now`: the scheduler's plan,
      counted from `now`, is recorded, and the request fields are kept. */
  function RecordDetection(s: AlarmSetting, now: int): (s': AlarmSetting)
    ensures var plan := CalculateOptimalAlarmTime(s.targetWakeTime, now);
      && s'.sleepDetected
      && s'.sleepStartTime == Some(now) && s'.sleepDetectedAt == Some(now)
      && s'.recommendedTime == Some(plan.recommendedTime)
      && s'.optimalWakeTime == Some(plan.optimalWakeTime)
      && s'.recommendedTime.value <= s.targetWakeTime
      && s'.targetWakeTime == s.targetWakeTime && s'.setAt == s.setAt
      && s'.pattern == s.pattern && s'.maxBright == s.maxBright && s'.intervalMs == s.intervalMs
    ensures SettingConsistent(s) ==> SettingConsistent(s')
  {
    var plan := CalculateOptimalAlarmTime(s.targetWakeTime, now);
    RecommendationIsTargetOrBoundary(s.targetWakeTime, now);
    s.(
      sleepDetected := true,
      sleepStartTime := Some(now),
      optimalWakeTime := Some(plan.optimalWakeTime),
      recommendedTime := Some(plan.recommendedTime),
      sleepDetectedAt := Some(now))
  }

  /** `handleSleepDetected`. Without a known device or without an alarm
      setting nothing happens; otherwise the detection is `Detected`. */
  function OnSleepDetected(h: State, now: int, id: DeviceId): (r: Outcome)
    ensures Lookup(h.reg, id).None? || id !in h.alarms ==> r == Quiet(h)
    ensures Lookup(h.reg, id).Some? && id in h.alarms ==> r == Detected(h, now, id)
    ensures WellRouted(r)
    ensures Valid(h) ==> Valid(r.hub)
  {
    if Lookup(h.reg, id).None? || id !in h.alarms then Quiet(h)
    else Detected(h, now, id)
  }

  /** A detection for a known device with an alarm setting: the alarm is
      scheduled from `now` as the sleep start, the device is told the delay
      when its socket is open, the setting records the result, and every
      observer hears about it. */
  function Detected(h: State, now: int, id: DeviceId): (r: Outcome)
    requires Lookup(h.reg, id).Some? && id in h.alarms
    ensures var s := h.alarms[id];
      var plan := CalculateOptimalAlarmTime(s.targetWakeTime, now);
      var dev := Lookup(h.reg, id).value;
      && r.hub.reg == h.reg && r.hub.sessions == h.sessions
      && id in r.hub.alarms
      && (forall other :: other != id ==>
            (other in r.hub.alarms <==> other in h.alarms) &&
            (other in h.alarms ==> r.hub.alarms[other] == h.alarms[other]))
      && r.hub.alarms[id] == RecordDetection(s, now)
      && (r.commands != [] <==> IsOpen(h.reg, dev.transport))
      && |r.commands| <= 1
      && (forall d :: d in r.commands ==>
            d.to == dev.transport && d.msg == SetAlarmDelay(AlarmDelay(plan.recommendedTime, now)))
      && (forall d :: d in r.broadcasts ==>
            d.msg == SleepDetectedEvent(id, SleepInfo(now, plan.recommendedTime, plan.cyclesToTarget), now))
      && (forall u :: IsObserver(h.reg, u) ==>
            Delivery(u, SleepDetectedEvent(id, SleepInfo(now, plan.recommendedTime, plan.cyclesToTarget), now)) in r.broadcasts)
    ensures WellRouted(r)
    ensures Valid(h) ==> Valid(r.hub)
  {
    var s := h.alarms[id];
    var plan := CalculateOptimalAlarmTime(s.targetWakeTime, now);
    var hub := Recorded(h, now, id);
    var info := SleepInfo(now, plan.recommendedTime, plan.cyclesToTarget);
    var cmds := SendTo(h.reg, id, SetAlarmDelay(AlarmDelay(plan.recommendedTime, now)));
    var events := Broadcast(h.reg, SleepDetectedEvent(id, info, now));
    assert hub.reg == h.reg;
    Step(hub, cmds, events)
  }

  /** The state with the id's setting replaced by its recorded detection. */
  function Recorded(h: State, now: int, id: DeviceId): (r: State)
    requires id in h.alarms
    ensures r.reg == h.reg && r.sessions == h.sessions
    ensures id in r.alarms && r.alarms[id] == RecordDetection(h.alarms[id], now)
    ensures forall other :: other != id ==>
      (other in r.alarms <==> other in h.alarms) &&
      (other in h.alarms ==> r.alarms[other] == h.alarms[other])
    ensures Valid(h) ==> Valid(r)
  {
    h.(alarms := h.alarms[id := RecordDetection(h.alarms[id], now)])
  }

  /** The dimming command built from a stored setting, each field falling
      back to its default when zero. A consistent setting is used as stored. */
  function AlarmDimming(s: AlarmSetting): (c: Command)
    ensures c.BulbDimming? && c.pattern != 0 && c.maxBright != 0 && c.intervalMs.Some?
    ensures c.pattern == (if s.pattern != 0 then s.pattern else 1)
    ensures c.maxBright == (if s.maxBright != 0 then s.maxBright else 100)
    ensures c.intervalMs == Some(if s.intervalMs != 0 then s.intervalMs else 10)
    ensures SettingConsistent(s) ==> c == BulbDimming(s.pattern, s.maxBright, Some(s.intervalMs))
  {
    BulbDimming(OrElse(s.pattern, 1), OrElse(s.maxBright, 100), Some(OrElse(s.intervalMs, 10)))
  }

  /** `handleAlarmTriggered`: the state is left alone; when the device is
      open and has an alarm setting it receives the dimming command built
      from that setting; observers are told in every case. */
  function OnAlarmTriggered(h: State, now: int, id: DeviceId): (r: Outcome)
    ensures r.hub == h
    ensures r.commands != [] <==>
      Lookup(h.reg, id).Some? && IsOpen(h.reg, Lookup(h.reg, id).value.transport) && id in h.alarms
    ensures |r.commands| <= 1
    ensures forall d :: d in r.commands ==>
      id in h.alarms && Lookup(h.reg, id).Some? &&
      d == Delivery(Lookup(h.reg, id).value.transport, AlarmDimming(h.alarms[id]))
    ensures forall d :: d in r.broadcasts ==> d.msg == AlarmTriggeredEvent(id, now)
    ensures forall u :: IsObserver(h.reg, u) ==> Delivery(u, AlarmTriggeredEvent(id, now)) in r.broadcasts
    ensures WellRouted(r)
  {
    Step(h, DimmingCommands(h, id), Broadcast(h.reg, AlarmTriggeredEvent(id, now)))
  }

  /** The dimming command for a device with an alarm setting, sent when the
      device is open. */
  function DimmingCommands(h: State, id: DeviceId): (r: seq<Delivery<Command>>)
    ensures |r| <= 1
    ensures r != [] <==>
      Lookup(h.reg, id).Some? && IsOpen(h.reg, Lookup(h.reg, id).value.transport) && id in h.alarms
    ensures forall d :: d in r ==>
      id in h.alarms && Lookup(h.reg, id).Some? &&
      d == Delivery(Lookup(h.reg, id).value.transport, AlarmDimming(h.alarms[id]))
    ensures forall d :: d in r ==> IsDeviceTransport(h.reg, d.to) && IsOpen(h.reg, d.to)
  {
    if id !in h.alarms then [] else SendTo(h.reg, id, AlarmDimming(h.alarms[id]))
  }

  /** In a valid state the lamp dims with exactly the stored pattern,
      brightness and interval. */
  lemma AlarmUsesStoredDimming(h: State, now: int, id: DeviceId, d: Delivery<Command>)
    requires Valid(h) && d in OnAlarmTriggered(h, now, id).commands
    ensures id in h.alarms
    ensures var s := h.alarms[id]; d.msg == BulbDimming(s.pattern, s.maxBright, Some(s.intervalMs))
  {
  }

  /** The `status` switch of the dispatcher. */
  function OnStatus(h: State, now: int, t: TransportId, m: Message): (r: Outcome)
    ensures WellRouted(r)
    ensures Valid(h) ==> Valid(r.hub)
    ensures !m.status.ConnectedStatus? ==> r.hub.reg.clients == h.reg.clients
    ensures Valid(h) && !m.status.ConnectedStatus? ==>
      forall u :: IsDeviceTransport(r.hub.reg, u) <==> IsDeviceTransport(h.reg, u)
    ensures m.status.NoStatus? || m.status.OtherStatus? ==> r == Quiet(h)
    ensures m.status.ConnectedStatus? ==> r == OnConnected(h, now, t, m.deviceId, m.monitoring, m.alarmActive)
    ensures m.status.MonitoringStartedStatus? ==> r == OnMonitoringStarted(h, now, m.deviceId)
    ensures m.status.MonitoringStoppedStatus? ==> r == OnMonitoringStopped(h, m.deviceId)
    ensures m.status.SleepDetectedStatus? ==> r == OnSleepDetected(h, now, m.deviceId)
    ensures m.status.AlarmTriggeredStatus? ==> r == OnAlarmTriggered(h, now, m.deviceId)
  {
    match m.status
    case ConnectedStatus => OnConnected(h, now, t, m.deviceId, m.monitoring, m.alarmActive)
    case MonitoringStartedStatus => OnMonitoringStarted(h, now, m.deviceId)
    case MonitoringStoppedStatus => OnMonitoringStopped(h, m.deviceId)
    case SleepDetectedStatus => OnSleepDetected(h, now, m.deviceId)
    case AlarmTriggeredStatus => OnAlarmTriggered(h, now, m.deviceId)
    case _ => Quiet(h)
  }

  /** A `sleep_data` frame with an array batch: the sleep-data handler,
      then the status switch on the state it leaves. */
  function SleepFrame(h: State, now: int, t: TransportId, m: Message, batch: seq<Sample>): (r: Outcome)
    ensures var first := OnSleepData(h, now, m.deviceId, batch);
      r == Then(first, OnStatus(first.hub, now, t, m))
    ensures Valid(h) ==> Valid(r.hub)
    ensures Valid(h) && !m.status.ConnectedStatus? ==> WellRouted(r)
  {
    var first := OnSleepData(h, now, m.deviceId, batch);
    var rest := OnStatus(first.hub, now, t, m);
    assert Valid(h) && !m.status.ConnectedStatus? ==> WellRouted(Then(first, rest)) by {
      if Valid(h) && !m.status.ConnectedStatus? {
        ThenKeepsRouting(first, rest, first.hub.reg);
      }
    }
    Then(first, rest)
  }

  /** The `message` listener with `handleWebSocketMessage`. A frame that does
      not parse is dropped. The `data_type` switch runs first: `sleep_data`
      ingests the batch, and a `data` field that is not an array throws after
      the session was created, ending the handling. `device_status` calls a
      handler that the program never defines: with `statusHandled` false that
      throws and ends the handling (the program as written); with
      `statusHandled` true it does nothing and the status switch still runs. */
  function DispatchWith(h: State, now: int, t: TransportId, frame: Frame, statusHandled: bool): (r: Outcome)
    ensures frame.Malformed? ==> r == Quiet(h)
    ensures frame.Parsed? && frame.msg.dataType == SleepDataType(None) ==>
      && r.hub.reg == h.reg && r.hub.alarms == h.alarms
      && r.hub.sessions == EnsureSession(h.sessions, frame.msg.deviceId, now)
      && r.commands == [] && r.broadcasts == []
    ensures frame.Parsed? && frame.msg.dataType.SleepDataType? && frame.msg.dataType.batch.Some? ==>
      var first := OnSleepData(h, now, frame.msg.deviceId, frame.msg.dataType.batch.value);
      r == Then(first, OnStatus(first.hub, now, t, frame.msg))
    ensures frame.Parsed? && frame.msg.dataType.DeviceStatusType? ==>
      r == if statusHandled then OnStatus(h, now, t, frame.msg) else Quiet(h)
    ensures frame.Parsed? && frame.msg.dataType.OtherDataType? ==> r == OnStatus(h, now, t, frame.msg)
    ensures Valid(h) ==> Valid(r.hub)
    ensures Valid(h) && frame.Parsed? && !frame.msg.status.ConnectedStatus? ==> WellRouted(r)
  {
    match frame
    case Malformed => Quiet(h)
    case Parsed(m) =>
      match m.dataType
      case SleepDataType(None) =>
        Quiet(h.(sessions := EnsureSession(h.sessions, m.deviceId, now)))
      case SleepDataType(Some(batch)) => SleepFrame(h, now, t, m, batch)
      case DeviceStatusType =>
        if statusHandled then OnStatus(h, now, t, m) else Quiet(h)
      case OtherDataType => OnStatus(h, now, t, m)
  }

  /** The dispatcher as written. */
  function Dispatch(h: State, now: int, t: TransportId, frame: Frame): (r: Outcome)
    ensures frame.Malformed? ==> r == Quiet(h)
    ensures frame.Parsed? && frame.msg.dataType.DeviceStatusType? ==> r == Quiet(h)
    ensures frame.Parsed? && frame.msg.dataType.SleepDataType? && frame.msg.dataType.batch.Some? ==>
      var first := OnSleepData(h, now, frame.msg.deviceId, frame.msg.dataType.batch.value);
      r == Then(first, OnStatus(first.hub, now, t, frame.msg))
    ensures frame.Parsed? && frame.msg.dataType.OtherDataType? ==> r == OnStatus(h, now, t, frame.msg)
    ensures Valid(h) ==> Valid(r.hub)
    ensures Valid(h) && frame.Parsed? && !frame.msg.status.ConnectedStatus? ==> WellRouted(r)
  {
    DispatchWith(h, now, t, frame, false)
  }

  /** The dispatcher with `handleDeviceStatus` taken as a no-op, after
      which the status switch runs as for any other frame. */
  function DispatchRepaired(h: State, now: int, t: TransportId, frame: Frame): (r: Outcome)
    ensures frame.Malformed? ==> r == Quiet(h)
    ensures frame.Parsed? && frame.msg.dataType.DeviceStatusType? ==> r == OnStatus(h, now, t, frame.msg)
    ensures frame.Parsed? && frame.msg.dataType.SleepDataType? && frame.msg.dataType.batch.Some? ==>
      var first := OnSleepData(h, now, frame.msg.deviceId, frame.msg.dataType.batch.value);
      r == Then(first, OnStatus(first.hub, now, t, frame.msg))
    ensures frame.Parsed? && frame.msg.dataType.OtherDataType? ==> r == OnStatus(h, now, t, frame.msg)
    ensures Valid(h) ==> Valid(r.hub)
    ensures Valid(h) && frame.Parsed? && !frame.msg.status.ConnectedStatus? ==> WellRouted(r)
  {
    DispatchWith(h, now, t, frame, true)
  }

  /** A `sleep_data` frame with no status appends its batch to the device's
      session, which the session route then shows, with the batch's
      analysis as the latest one. */
  lemma SleepDataFrameIsRecorded(h: State, now: int, t: TransportId, id: DeviceId, batch: seq<Sample>)
    ensures var m := Message(id, SleepDataType(Some(batch)), NoStatus, false, false);
      var s := GetSession(Dispatch(h, now, t, Parsed(m)).hub, id);
      && s.Ok?
      && s.value.samples == SamplesOf(h.sessions, id) + batch
      && s.value.lastAnalysis == Some(Analyze(Some(batch)))
  {
  }

  /** A frame of an unknown data type still runs the status switch. */
  lemma OtherFrameRunsStatus(h: State, now: int, t: TransportId, id: DeviceId)
    ensures var m := Message(id, OtherDataType, MonitoringStartedStatus, false, false);
      GetSession(Dispatch(h, now, t, Parsed(m)).hub, id) == Ok(Session(now, [], None))
  {
  }

  /** A `sleep_detected` frame for a known device with an alarm setting
      records the detection and the scheduler's recommendation counted
      from the moment it arrived. */
  lemma SleepDetectedFrameSchedules(h: State, now: int, t: TransportId, id: DeviceId)
    requires Lookup(h.reg, id).Some? && id in h.alarms
    ensures var m := Message(id, OtherDataType, SleepDetectedStatus, false, false);
      var r := Dispatch(h, now, t, Parsed(m));
      var plan := CalculateOptimalAlarmTime(h.alarms[id].targetWakeTime, now);
      && id in r.hub.alarms && r.hub.alarms[id].sleepDetected
      && r.hub.alarms[id].recommendedTime == Some(plan.recommendedTime)
  {
  }

  /** As written, a device announcing itself in a `device_status` message is
      never registered. */
  lemma DeviceStatusConnectIsLost(h: State, now: int, t: TransportId, id: DeviceId)
    requires Lookup(h.reg, id).None?
    ensures var m := Message(id, DeviceStatusType, ConnectedStatus, false, false);
      Lookup(Dispatch(h, now, t, Parsed(m)).hub.reg, id).None?
  {
  }

  /** Repaired, the same message registers the device on its transport. */
  lemma DeviceStatusConnectRegisters(h: State, now: int, t: TransportId, id: DeviceId)
    ensures var m := Message(id, DeviceStatusType, ConnectedStatus, false, false);
      Lookup(DispatchRepaired(h, now, t, Parsed(m)).hub.reg, id) == Some(Device(t, now, false, false))
  {
  }
}

=== FILE: ordered_map.dfy ===
/** Insertion-ordered maps with the semantics of a JavaScript `Map`:
    `set` on a present key replaces its value in place, `set` on a new key
    appends the entry at the end, and iteration follows insertion order. */
module OrderedMap {
  import opened Wrappers

  datatype Entry<K, V> = Entry(key: K, value: V)

  /** No key occurs twice. */
  ghost predicate UniqueKeys<K, V>(m: seq<Entry<K, V>>) {
    forall i, j :: 0 <= i < j < |m| ==> m[i].key != m[j].key
  }

  /** The keys in insertion order. */
  function Keys<K, V>(m: seq<Entry<K, V>>): (ks: seq<K>)
    ensures |ks| == |m|
    ensures forall i :: 0 <= i < |m| ==> ks[i] == m[i].key
  {
    if |m| == 0 then [] else [m[0].key] + Keys(m[1..])
  }

  /** The first position holding key `k`, scanning in insertion order. */
  function IndexOf<K(==), V>(m: seq<Entry<K, V>>, k: K): (r: Option<nat>)
    ensures r.None? ==> forall i :: 0 <= i < |m| ==> m[i].key != k
    ensures r.Some? ==> r.value < |m| && m[r.value].key == k && forall j :: 0 <= j < r.value ==> m[j].key != k
  {
    if |m| == 0 then None
    else if m[0].key == k then Some(0)
    else
      match IndexOf(m[1..], k)
      case None => None
      case Some(i) => Some(i + 1)
  }

  /** The first position holding `k` is the only candidate. */
  lemma IndexOfIsFirst<K, V>(m: seq<Entry<K, V>>, k: K, i: nat)
    requires i < |m| && m[i].key == k
    requires forall j :: 0 <= j < i ==> m[j].key != k
    ensures IndexOf(m, k) == Some(i)
  {
  }

  /** A key is present exactly when some position holds it. */
  lemma InKeys<K, V>(m: seq<Entry<K, V>>, k: K)
    ensures k in Keys(m) <==> IndexOf(m, k).Some?
  {
    if IndexOf(m, k).Some? {
      assert Keys(m)[IndexOf(m, k).value] == k;
    }
  }

  /** `Map.prototype.get`: the value stored under `k`, if any. */
  function Get<K(==), V>(m: seq<Entry<K, V>>, k: K): (r: Option<V>)
    ensures r.None? <==> k !in Keys(m)
    ensures r.Some? ==> Entry(k, r.value) in m
    ensures UniqueKeys(m) ==>
      forall i :: 0 <= i < |m| && m[i].key == k ==> r == Some(m[i].value)
  {
    InKeys(m, k);
    match IndexOf(m, k)
    case None => None
    case Some(i) =>
      assert m[i] == Entry(k, m[i].value);
      Some(m[i].value)
  }

  /** `Map.prototype.set`. */
  function Set<K(==,!new), V>(m: seq<Entry<K, V>>, k: K, v: V): (r: seq<Entry<K, V>>)
    ensures Get(r, k) == Some(v)
    ensures forall k' :: k' != k ==> Get(r, k') == Get(m, k')
    ensures k in Keys(m) ==> Keys(r) == Keys(m)
    ensures k !in Keys(m) ==> Keys(r) == Keys(m) + [k]
  {
    InKeys(m, k);
    match IndexOf(m, k)
    case None =>
      Appended(m, k, v);
      m + [Entry(k, v)]
    case Some(i) =>
      Overwritten(m, i, k, v);
      m[i := Entry(k, v)]
  }

  /** Appending an entry for an absent key. */
  lemma Appended<K(!new), V>(m: seq<Entry<K, V>>, k: K, v: V)
    requires IndexOf(m, k).None?
    ensures Get(m + [Entry(k, v)], k) == Some(v)
    ensures forall k' :: k' != k ==> Get(m + [Entry(k, v)], k') == Get(m, k')
    ensures Keys(m + [Entry(k, v)]) == Keys(m) + [k]
  {
    var r := m + [Entry(k, v)];
    IndexOfIsFirst(r, k, |m|);
    forall k' | k' != k ensures Get(r, k') == Get(m, k') {
      AppendedOther(m, k, v, k');
    }
    KeysAppend(m, Entry(k, v));
  }

  /** Appending an entry appends its key. */
  lemma KeysAppend<K, V>(m: seq<Entry<K, V>>, e: Entry<K, V>)
    ensures Keys(m + [e]) == Keys(m) + [e.key]
  {
    var r := m + [e];
    forall i | 0 <= i < |r| ensures Keys(r)[i] == (Keys(m) + [e.key])[i] {
      if i < |m| {
        assert r[i] == m[i];
      }
    }
  }

  /** Appending an entry for `k` leaves the first position of any other key. */
  lemma AppendedOther<K(!new), V>(m: seq<Entry<K, V>>, k: K, v: V, k': K)
    requires k' != k
    ensures IndexOf(m + [Entry(k, v)], k') == IndexOf(m, k')
    ensures Get(m + [Entry(k, v)], k') == Get(m, k')
  {
    var r := m + [Entry(k, v)];
    if IndexOf(m, k').Some? {
      IndexOfIsFirst(r, k', IndexOf(m, k').value);
    } else {
      assert forall j :: 0 <= j < |r| ==> r[j].key != k';
    }
  }

  /** Replacing the entry at the first position holding `k`. */
  lemma Overwritten<K(!new), V>(m: seq<Entry<K, V>>, i: nat, k: K, v: V)
    requires IndexOf(m, k) == Some(i)
    ensures Get(m[i := Entry(k, v)], k) == Some(v)
    ensures forall k' :: k' != k ==> Get(m[i := Entry(k, v)], k') == Get(m, k')
    ensures Keys(m[i := Entry(k, v)]) == Keys(m)
  {
    var r := m[i := Entry(k, v)];
    IndexOfIsFirst(r, k, i);
    forall k' | k' != k ensures Get(r, k') == Get(m, k') {
      if IndexOf(m, k').Some? {
        IndexOfIsFirst(r, k', IndexOf(m, k').value);
      } else {
        assert forall j :: 0 <= j < |r| ==> r[j].key != k';
      }
    }
  }

  /** `set` on a present key rewrites only the entry holding that key and
      leaves every other position alone. */
  lemma SetInPlace<K(!new), V>(m: seq<Entry<K, V>>, k: K, v: V)
    requires k in Keys(m)
    ensures |Set(m, k, v)| == |m|
    ensures forall i :: 0 <= i < |m| ==>
      Set(m, k, v)[i] == m[i] || (m[i].key == k && Set(m, k, v)[i] == Entry(k, v))
  {
    InKeys(m, k);
  }

  /** `set` never introduces a second entry for a key. */
  lemma SetKeepsKeysUnique<K(!new), V>(m: seq<Entry<K, V>>, k: K, v: V)
    requires UniqueKeys(m)
    ensures UniqueKeys(Set(m, k, v))
  {
    InKeys(m, k);
  }
}

=== FILE: protocol.dfy ===
/** The wire vocabulary: inbound device messages, outbound device commands,
    observer events and request replies, after JSON parsing. */
module Protocol {
  import opened Wrappers
  import opened Registry

  /** One element of a `sleep_data` batch. A field is `None` when it is
      missing (`undefined`); fields holding other JSON types are not modelled. */
  datatype Sample = Sample(stage: Option<int>, movement: Option<real>, timestamp: Option<int>)

  /** A JavaScript number produced by `Number(...)`. */
  datatype JsNumber = Finite(v: real) | NaN

  /** A numeric request field: `undefined`/`null`, a number, or some other
      value whose `Number(...)` conversion is NaN (such as non-numeric text). */
  datatype NumField = Absent | Num(v: real) | NotNumeric

  /** A device id as it arrives in a request body. */
  datatype RawId = Undefined | Null | Id(s: DeviceId)

  /** `!deviceId`: the id is missing, null or the empty string. */
  predicate MissingId(id: RawId) {
    id.Undefined? || id.Null? || id.s == ""
  }

  /** `data_type` of an inbound device message. A `sleep_data` batch is
      `None` when the `data` field is not an array. */
  datatype DataType = SleepDataType(batch: Option<seq<Sample>>) | DeviceStatusType | OtherDataType

  /** `status` of an inbound device message; `NoStatus` is an absent or empty
      status, `OtherStatus` any value the switch does not name. */
  datatype Status =
    | NoStatus
    | ConnectedStatus
    | MonitoringStartedStatus
    | MonitoringStoppedStatus
    | SleepDetectedStatus
    | AlarmTriggeredStatus
    | OtherStatus

  /** A parsed device message. `monitoring` and `alarmActive` are the
      `monitoring || false` and `alarm_active || false` flags. */
  datatype Message = Message(deviceId: DeviceId, dataType: DataType, status: Status, monitoring: bool, alarmActive: bool)

  /** A WebSocket text frame: valid JSON, or something `JSON.parse` rejects. */
  datatype Frame = Parsed(msg: Message) | Malformed

  /** Commands the hub sends to a device. */
  datatype Command =
    | StartMonitoring(timestamp: int)
    | StopMonitoring(timestamp: int)
    | SetAlarmDelay(delayMs: int)
    | SetAlarmAt(alarmTime: int, targetWakeTime: int)
    | CancelAlarm(timestamp: int)
    | BulbDimming(pattern: int, maxBright: int, intervalMs: Option<int>)
    | BulbPower(on: bool)
    | SetPowerClamped(level: int)
    | SetBrightness(brightness: JsNumber)
    | SunriseStart(durationMs: JsNumber, targetLevel: JsNumber)
    | SunriseCancel

  datatype SleepInfo = SleepInfo(sleepStartTime: int, recommendedAlarmTime: int, cyclesToTarget: int)

  /** Events broadcast to observers; `A` is the analysis a revision reports. */
  datatype Event<A> =
    | DeviceStatusEvent(devices: seq<DeviceView>)
    | SleepDataEvent(deviceId: DeviceId, analysis: A, timestamp: int)
    | SleepDetectedEvent(deviceId: DeviceId, info: SleepInfo, timestamp: int)
    | AlarmTriggeredEvent(deviceId: DeviceId, timestamp: int)

  /** What a request handler answers: success (200) with a payload, or one of
      the error kinds 400, 404 and 503. */
  datatype Reply<T> = Ok(value: T) | ValidationError | NotFound | Unavailable

  /** `x || d` for a number `x`: zero falls back to `d`. */
  function OrElse(x: int, d: int): (r: int)
    ensures x != 0 ==> r == x
    ensures x == 0 ==> r == d
    ensures d != 0 ==> r != 0
  {
    if x == 0 then d else x
  }

  /** `parseInt(x) || d`: NaN (`None`) and zero fall back to `d`. */
  function ParsedOr(x: Option<int>, d: int): (r: int)
    ensures x.Some? && x.value != 0 ==> r == x.value
    ensures x.None? || x.value == 0 ==> r == d
    ensures d != 0 ==> r != 0
  {
    match x
    case None => d
    case Some(v) => OrElse(v, d)
  }
}

=== FILE: registry.dfy ===
/** The connection registry: every open WebSocket transport, and the devices
    that announced themselves over one of them. A transport is a device
    transport exactly when some device entry holds it; every other open
    transport is an observer (a dashboard). */
module Registry {
  import opened Wrappers
  import opened OrderedMap

  type DeviceId = string

  /** A transport stands for one WebSocket; only its identity and whether its
      `readyState` is OPEN matter to the hub. */
  type TransportId = nat

  datatype Transport = Transport(id: TransportId, open: bool)

  datatype Device = Device(transport: TransportId, connectedAt: int, isMonitoring: bool, alarmActive: bool)

  /** Device entries keyed by device id, in insertion order. */
  type Devices = seq<Entry<DeviceId, Device>>

  /** `clients` lists the server's live transports in connection order;
      `devices` is the device map. */
  datatype Registry = Registry(clients: seq<Transport>, devices: Devices)

  /** One frame handed to one transport. */
  datatype Delivery<M> = Delivery(to: TransportId, msg: M)

  /** The device summary that `device_status` broadcasts and the device
      listing carry. */
  datatype DeviceView = DeviceView(deviceId: DeviceId, isMonitoring: bool, alarmActive: bool, connectedAt: int)

  const NoConnections: Registry := Registry([], [])

  /** No two clients share a transport: `wss.clients` is a set of sockets. */
  ghost predicate DistinctClients(clients: seq<Transport>) {
    forall i, j :: 0 <= i < j < |clients| ==> clients[i].id != clients[j].id
  }

  /** The registry's own invariant: a device id is held by one entry only,
      and each transport is one client. */
  ghost predicate WellFormed(reg: Registry) {
    UniqueKeys(reg.devices) && DistinctClients(reg.clients)
  }

  lemma DistinctTail(clients: seq<Transport>)
    requires DistinctClients(clients) && |clients| > 0
    ensures DistinctClients(clients[1..])
  {
    forall i, j | 0 <= i < j < |clients[1..]| ensures clients[1..][i].id != clients[1..][j].id {
      assert clients[1..][i] == clients[i + 1] && clients[1..][j] == clients[j + 1];
    }
  }

  /** A transport the server has never handed out: no client and no device
      entry holds it, as for every newly created socket. */
  predicate Fresh(reg: Registry, t: TransportId) {
    (forall c :: c in reg.clients ==> c.id != t) && OwnerIndex(reg.devices, t).None?
  }

  /** The position of the first device entry that holds transport `t`. */
  function OwnerIndex(devices: Devices, t: TransportId): (r: Option<nat>)
    ensures r.Some? ==> r.value < |devices| && devices[r.value].value.transport == t
    ensures r.Some? ==> forall j :: 0 <= j < r.value ==> devices[j].value.transport != t
    ensures r.None? ==> forall j :: 0 <= j < |devices| ==> devices[j].value.transport != t
  {
    if |devices| == 0 then None
    else if devices[0].value.transport == t then Some(0)
    else match OwnerIndex(devices[1..], t)
      case None => None
      case Some(i) => Some(i + 1)
  }

  predicate IsOpen(reg: Registry, t: TransportId) {
    Transport(t, true) in reg.clients
  }

  predicate IsDeviceTransport(reg: Registry, t: TransportId) {
    OwnerIndex(reg.devices, t).Some?
  }

  /** The classification used by the broadcast loop: open, and held by no device. */
  predicate IsObserver(reg: Registry, t: TransportId) {
    IsOpen(reg, t) && !IsDeviceTransport(reg, t)
  }

  /** `connectedDevices.get`. */
  function Lookup(reg: Registry, id: DeviceId): (r: Option<Device>)
    ensures r == Get(reg.devices, id)
    ensures r.Some? <==> id in Keys(reg.devices)
    ensures r.Some? ==> Entry(id, r.value) in reg.devices
    ensures r.Some? ==> IsDeviceTransport(reg, r.value.transport)
  {
    var r := Get(reg.devices, id);
    if r.Some? then
      assert Entry(id, r.value) in reg.devices;
      r
    else r
  }

  /** The ids of the open transports that no device holds, in client order. */
  function ObserverIds(clients: seq<Transport>, devices: Devices): (r: seq<TransportId>)
    ensures forall t :: t in r <==> Transport(t, true) in clients && OwnerIndex(devices, t).None?
    ensures DistinctClients(clients) ==> forall i, j :: 0 <= i < j < |r| ==> r[i] != r[j]
  {
    if |clients| == 0 then []
    else
      var rest := ObserverIds(clients[1..], devices);
      assert clients == [clients[0]] + clients[1..];
      if clients[0].open && OwnerIndex(devices, clients[0].id).None? then
        var r := [clients[0].id] + rest;
        assert DistinctClients(clients) ==> forall i, j :: 0 <= i < j < |r| ==> r[i] != r[j] by {
          if DistinctClients(clients) {
            DistinctTail(clients);
            forall x | x in rest ensures x != clients[0].id {
              var k :| 0 <= k < |clients[1..]| && clients[1..][k] == Transport(x, true);
              assert clients[k + 1].id == x;
            }
            forall i, j | 0 <= i < j < |r| ensures r[i] != r[j] {
              assert r[j] == rest[j - 1];
              if i > 0 {
                assert r[i] == rest[i - 1];
              }
            }
          }
        }
        r
      else
        assert DistinctClients(clients) ==> DistinctClients(clients[1..]) by {
          if DistinctClients(clients) {
            DistinctTail(clients);
          }
        }
        rest
  }

  /** The broadcast loop's classification and its list agree: a transport
      is an observer exactly when the list of observers holds it. */
  lemma ObserverClassification(reg: Registry, t: TransportId)
    ensures IsObserver(reg, t) <==> t in ObserverIds(reg.clients, reg.devices)
  {
  }

  /** One copy of `msg` for each transport in `ids`, in order. */
  function Fanout<M>(ids: seq<TransportId>, msg: M): (r: seq<Delivery<M>>)
    ensures |r| == |ids|
    ensures forall i :: 0 <= i < |ids| ==> r[i] == Delivery(ids[i], msg)
    ensures forall d :: d in r ==> d.msg == msg && d.to in ids
    ensures forall t :: t in ids ==> Delivery(t, msg) in r
  {
    if |ids| == 0 then [] else [Delivery(ids[0], msg)] + Fanout(ids[1..], msg)
  }

  /** `broadcastToWebClients`: every observer receives `msg`, and nobody
      else does; with distinct clients, nobody receives it twice. */
  function Broadcast<M>(reg: Registry, msg: M): (r: seq<Delivery<M>>)
    ensures forall d :: d in r ==> d.msg == msg && IsObserver(reg, d.to)
    ensures forall t :: IsObserver(reg, t) ==> Delivery(t, msg) in r
    ensures DistinctClients(reg.clients) ==> forall i, j :: 0 <= i < j < |r| ==> r[i].to != r[j].to
  {
    Fanout(ObserverIds(reg.clients, reg.devices), msg)
  }

  /** A frame to device `id`, delivered only when the device is known and its
      transport is open. */
  function SendTo<M>(reg: Registry, id: DeviceId, msg: M): (r: seq<Delivery<M>>)
    ensures |r| <= 1
    ensures r != [] <==> Lookup(reg, id).Some? && IsOpen(reg, Lookup(reg, id).value.transport)
    ensures forall d :: d in r ==> d.msg == msg && d.to == Lookup(reg, id).value.transport
    ensures forall d :: d in r ==> IsDeviceTransport(reg, d.to) && IsOpen(reg, d.to)
  {
    match Lookup(reg, id)
    case None => []
    case Some(dev) => if IsOpen(reg, dev.transport) then [Delivery(dev.transport, msg)] else []
  }

  /** A new WebSocket connection joins the server's clients as an observer. */
  function Accept(reg: Registry, t: TransportId): (r: Registry)
    requires Fresh(reg, t)
    ensures r.devices == reg.devices
    ensures IsObserver(r, t)
    ensures WellFormed(reg) ==> WellFormed(r)
    ensures forall u :: IsOpen(reg, u) ==> IsOpen(r, u)
    ensures forall u :: u != t ==> (IsOpen(r, u) <==> IsOpen(reg, u))
  {
    reg.(clients := reg.clients + [Transport(t, true)])
  }

  /** `handleDeviceConnection`: upsert the device entry under `id`, now held by `t`. */
  function Connect(reg: Registry, id: DeviceId, t: TransportId, now: int, monitoring: bool, alarmActive: bool)
    : (r: Registry)
    ensures r.clients == reg.clients
    ensures Lookup(r, id) == Some(Device(t, now, monitoring, alarmActive))
    ensures forall other :: other != id ==> Lookup(r, other) == Lookup(reg, other)
    ensures id in Keys(reg.devices) ==> Keys(r.devices) == Keys(reg.devices)
    ensures id !in Keys(reg.devices) ==> Keys(r.devices) == Keys(reg.devices) + [id]
    ensures IsDeviceTransport(r, t) && !IsObserver(r, t)
    ensures WellFormed(reg) ==> WellFormed(r)
  {
    var devices := Set(reg.devices, id, Device(t, now, monitoring, alarmActive));
    assert WellFormed(reg) ==> UniqueKeys(devices) by {
      if WellFormed(reg) {
        SetKeepsKeysUnique(reg.devices, id, Device(t, now, monitoring, alarmActive));
      }
    }
    reg.(devices := devices)
  }

  /** The `isMonitoring` flag of a known device is overwritten in place; an
      unknown id changes nothing. */
  function SetMonitoring(reg: Registry, id: DeviceId, on: bool): (r: Registry)
    ensures r.clients == reg.clients
    ensures Keys(r.devices) == Keys(reg.devices)
    ensures Lookup(reg, id).None? ==> r == reg
    ensures Lookup(reg, id).Some? ==> Lookup(r, id) == Some(Lookup(reg, id).value.(isMonitoring := on))
    ensures forall other :: other != id ==> Lookup(r, other) == Lookup(reg, other)
    ensures WellFormed(reg) ==> WellFormed(r)
    ensures WellFormed(reg) ==> forall t :: IsDeviceTransport(r, t) <==> IsDeviceTransport(reg, t)
  {
    match Lookup(reg, id)
    case None => reg
    case Some(dev) =>
      var devices := Set(reg.devices, id, dev.(isMonitoring := on));
      SetInPlace(reg.devices, id, dev.(isMonitoring := on));
      var r := reg.(devices := devices);
      assert WellFormed(reg) ==> WellFormed(r) && forall t :: IsDeviceTransport(r, t) <==> IsDeviceTransport(reg, t) by {
        if WellFormed(reg) {
          SetKeepsKeysUnique(reg.devices, id, dev.(isMonitoring := on));
          SameTransports(reg.devices, devices, id, dev, dev.(isMonitoring := on));
        }
      }
      r
  }

  /** Rewriting the one entry of `id` with a value on the same transport leaves
      the set of device transports as it was. */
  lemma SameTransports(m: Devices, m': Devices, id: DeviceId, before: Device, after: Device)
    requires UniqueKeys(m)
    requires Get(m, id) == Some(before) && after.transport == before.transport
    requires |m'| == |m|
    requires forall i :: 0 <= i < |m| ==> m'[i] == m[i] || (m[i].key == id && m'[i] == Entry(id, after))
    ensures forall t :: OwnerIndex(m', t).Some? <==> OwnerIndex(m, t).Some?
  {
    forall t
      ensures OwnerIndex(m', t).Some? <==> OwnerIndex(m, t).Some?
    {
      if OwnerIndex(m, t).Some? {
        var i := OwnerIndex(m, t).value;
        if m'[i] != m[i] {
          assert m[i].key == id && m[i].value == before;
        }
        assert m'[i].value.transport == t;
      }
      if OwnerIndex(m', t).Some? {
        var i := OwnerIndex(m', t).value;
        if m'[i] != m[i] {
          assert m[i].key == id && m[i].value == before;
        }
        assert m[i].value.transport == t;
      }
    }
  }

  /** The device map without the first entry that holds `t`. */
  function DropFirstOwnedBy(devices: Devices, t: TransportId): (r: Devices)
    ensures OwnerIndex(devices, t).None? ==> r == devices
    ensures OwnerIndex(devices, t).Some? ==>
      var i := OwnerIndex(devices, t).value;
      r == devices[..i] + devices[i + 1..]
  {
    if |devices| == 0 then []
    else if devices[0].value.transport == t then devices[1..]
    else
      var rest := DropFirstOwnedBy(devices[1..], t);
      if OwnerIndex(devices, t).Some? then
        ConsRemoved(devices, OwnerIndex(devices, t).value);
        [devices[0]] + rest
      else
        [devices[0]] + rest
  }

  /** Removing position `i > 0` commutes with putting the head back. */
  lemma ConsRemoved<T>(s: seq<T>, i: nat)
    requires 0 < i < |s|
    ensures [s[0]] + (s[1..][..i - 1] + s[1..][i..]) == s[..i] + s[i + 1..]
  {
    assert s[1..][..i - 1] == s[1..i];
    assert s[1..][i..] == s[i + 1..];
    assert s[..i] == [s[0]] + s[1..i];
  }

  /** Removing one entry from a map with unique keys removes exactly its key. */
  lemma GetAfterRemoveAt(m: Devices, i: nat, k: DeviceId)
    requires UniqueKeys(m) && i < |m|
    ensures UniqueKeys(m[..i] + m[i + 1..])
    ensures Get(m[..i] + m[i + 1..], k) == if k == m[i].key then None else Get(m, k)
  {
    var r := m[..i] + m[i + 1..];
    assert forall j :: 0 <= j < |r| ==> r[j] == m[if j < i then j else j + 1];
    forall a, b | 0 <= a < b < |r| ensures r[a].key != r[b].key {
      assert r[a] == m[if a < i then a else a + 1] && r[b] == m[if b < i then b else b + 1];
    }
    if k in Keys(m) && k != m[i].key {
      var p :| 0 <= p < |m| && Keys(m)[p] == k;
      var q := if p < i then p else p - 1;
      assert r[q] == m[p];
    } else {
      forall j | 0 <= j < |r| ensures r[j].key != k {
        var j' := if j < i then j else j + 1;
        assert r[j] == m[j'];
        assert Keys(m)[j'] == m[j'].key;
      }
      assert k !in Keys(r);
    }
  }

  /** The transport closes: it leaves the clients, and the first device entry
      holding it is deleted. Other entries, even ones on the same transport,
      survive. */
  function Disconnect(reg: Registry, t: TransportId): (r: Registry)
    ensures !IsOpen(r, t)
    ensures forall c :: c in r.clients <==> c in reg.clients && c.id != t
    ensures OwnerIndex(reg.devices, t).None? ==> r.devices == reg.devices
    ensures OwnerIndex(reg.devices, t).Some? ==>
      var i := OwnerIndex(reg.devices, t).value;
      r.devices == reg.devices[..i] + reg.devices[i + 1..]
    ensures WellFormed(reg) ==> WellFormed(r)
    ensures WellFormed(reg) && OwnerIndex(reg.devices, t).Some? ==>
      var gone := reg.devices[OwnerIndex(reg.devices, t).value].key;
      Lookup(r, gone).None? && forall id :: id != gone ==> Lookup(r, id) == Lookup(reg, id)
  {
    var devices := DropFirstOwnedBy(reg.devices, t);
    assert WellFormed(reg) ==> DistinctClients(RemoveTransport(reg.clients, t)) by {
      if WellFormed(reg) {
        RemoveTransportKeepsDistinct(reg.clients, t);
      }
    }
    assert WellFormed(reg) && OwnerIndex(reg.devices, t).Some? ==>
      var gone := reg.devices[OwnerIndex(reg.devices, t).value].key;
      var r := Registry(RemoveTransport(reg.clients, t), devices);
      UniqueKeys(devices) && Lookup(r, gone).None? && forall id :: id != gone ==> Lookup(r, id) == Lookup(reg, id) by {
      if WellFormed(reg) && OwnerIndex(reg.devices, t).Some? {
        DropOwnerLookups(reg, t);
      }
    }
    Registry(RemoveTransport(reg.clients, t), devices)
  }

  /** Dropping the owner of `t` forgets exactly that owner's id. */
  lemma DropOwnerLookups(reg: Registry, t: TransportId)
    requires WellFormed(reg) && OwnerIndex(reg.devices, t).Some?
    ensures UniqueKeys(DropFirstOwnedBy(reg.devices, t))
    ensures DistinctClients(RemoveTransport(reg.clients, t))
    ensures forall c :: Lookup(Registry(c, DropFirstOwnedBy(reg.devices, t)), reg.devices[OwnerIndex(reg.devices, t).value].key).None?
    ensures forall c, id :: id != reg.devices[OwnerIndex(reg.devices, t).value].key ==>
      Lookup(Registry(c, DropFirstOwnedBy(reg.devices, t)), id) == Lookup(reg, id)
  {
    var devices := DropFirstOwnedBy(reg.devices, t);
    var i := OwnerIndex(reg.devices, t).value;
    forall id ensures Get(devices, id) == if id == reg.devices[i].key then None else Get(reg.devices, id) {
      GetAfterRemoveAt(reg.devices, i, id);
    }
    GetAfterRemoveAt(reg.devices, i, reg.devices[i].key);
    RemoveTransportKeepsDistinct(reg.clients, t);
  }

  /** The clients without transport `t`. */
  function RemoveTransport(clients: seq<Transport>, t: TransportId): (r: seq<Transport>)
    ensures forall c :: c in r <==> c in clients && c.id != t
  {
    if |clients| == 0 then []
    else
      assert clients == [clients[0]] + clients[1..];
      var rest := RemoveTransport(clients[1..], t);
      if clients[0].id == t then rest else [clients[0]] + rest
  }

  /** Removing a transport keeps the clients distinct. */
  lemma {:induction false} RemoveTransportKeepsDistinct(clients: seq<Transport>, t: TransportId)
    requires DistinctClients(clients)
    ensures DistinctClients(RemoveTransport(clients, t))
  {
    if |clients| > 0 {
      DistinctTail(clients);
      RemoveTransportKeepsDistinct(clients[1..], t);
      var rest := RemoveTransport(clients[1..], t);
      if clients[0].id != t {
        var r := [clients[0]] + rest;
        forall i, j | 0 <= i < j < |r| ensures r[i].id != r[j].id {
          assert r[j] == rest[j - 1];
          if i == 0 {
            assert r[j] in clients[1..];
            var k :| 0 <= k < |clients[1..]| && clients[1..][k] == r[j];
            assert clients[k + 1] == r[j];
          } else {
            assert r[i] == rest[i - 1];
          }
        }
      }
    }
  }

  /** The device summaries in insertion order. */
  function Views(devices: Devices): (r: seq<DeviceView>)
    ensures |r| == |devices|
    ensures forall i :: 0 <= i < |devices| ==>
      r[i] == DeviceView(devices[i].key, devices[i].value.isMonitoring,
                         devices[i].value.alarmActive, devices[i].value.connectedAt)
  {
    if |devices| == 0 then []
    else
      var d := devices[0];
      [DeviceView(d.key, d.value.isMonitoring, d.value.alarmActive, d.value.connectedAt)] + Views(devices[1..])
  }
}

=== FILE: scenarios.dfy ===
/** An end-to-end run of the canonical revision: an alarm is set four hours
    ahead, sleep is detected ten minutes later, and the device is told to
    fire on the second cycle boundary after the detected sleep start. */
module Scenarios {
  import opened Wrappers
  import opened Registry
  import opened Protocol
  import opened Hub
  import opened Scheduler
  import opened Orchestrator
  import Api

  const MinuteMs: int := 60 * 1000

  /** A sequence of at most one element, all of whose elements are `x`,
      is `[x]` once it is non-empty. */
  lemma Single<T>(r: seq<T>, x: T)
    requires 0 < |r| <= 1 && forall d :: d in r ==> d == x
    ensures r == [x]
  {
    assert r[0] in r;
  }

  /** Setting an alarm four hours ahead on an open device stores it and
      starts monitoring. */
  lemma SetFourHourAlarm(h: State, start: int, id: DeviceId)
    requires id != "" && start >= 0
    requires Lookup(h.reg, id).Some? && IsOpen(h.reg, Lookup(h.reg, id).value.transport)
    ensures var req := Api.AlarmRequest(Api.Given(Some(start + 240 * MinuteMs)), Id(id), None, None, None);
      var r := Api.SetAlarm(h, start, req);
      && r.reply.Ok? && r.hub.reg == h.reg
      && id in r.hub.alarms && r.hub.alarms[id].targetWakeTime == start + 240 * MinuteMs
      && r.commands == [Delivery(Lookup(h.reg, id).value.transport, StartMonitoring(start))]
  {
    var req := Api.AlarmRequest(Api.Given(Some(start + 240 * MinuteMs)), Id(id), None, None, None);
    var r := Api.SetAlarm(h, start, req);
    assert !MissingId(req.deviceId);
    Single(r.commands, Delivery(Lookup(h.reg, id).value.transport, StartMonitoring(start)));
  }

  /** From ten minutes to 240 minutes after `start`, two cycles fit. */
  lemma TwoCyclesFit(start: int)
    ensures CalculateOptimalAlarmTime(start + 240 * MinuteMs, start + 10 * MinuteMs)
      == AlarmCalc(start + 190 * MinuteMs, 2, start + 190 * MinuteMs)
    ensures AlarmDelay(start + 190 * MinuteMs, start + 10 * MinuteMs) == 180 * MinuteMs
  {
  }

  /** Sleep detected ten minutes in, with the target 230 minutes after
      that, fits two whole cycles: the alarm is due 180 minutes later. */
  lemma DetectSleepTenMinutesIn(h: State, start: int, id: DeviceId)
    requires Lookup(h.reg, id).Some? && IsOpen(h.reg, Lookup(h.reg, id).value.transport)
    requires id in h.alarms && h.alarms[id].targetWakeTime == start + 240 * MinuteMs
    ensures var r := OnSleepDetected(h, start + 10 * MinuteMs, id);
      && r.commands == [Delivery(Lookup(h.reg, id).value.transport, SetAlarmDelay(180 * MinuteMs))]
      && r.hub.alarms[id].recommendedTime == Some(start + 190 * MinuteMs)
      && forall d :: d in r.broadcasts ==>
           d.msg == SleepDetectedEvent(id, SleepInfo(start + 10 * MinuteMs, start + 190 * MinuteMs, 2), start + 10 * MinuteMs)
  {
    TwoCyclesFit(start);
    var r := OnSleepDetected(h, start + 10 * MinuteMs, id);
    assert |r.commands| <= 1;
    Single(r.commands, Delivery(Lookup(h.reg, id).value.transport, SetAlarmDelay(180 * MinuteMs)));
  }

  /** The two steps in sequence. */
  lemma FourHourAlarm(h: State, start: int, id: DeviceId)
    requires id != "" && start >= 0
    requires Lookup(h.reg, id).Some? && IsOpen(h.reg, Lookup(h.reg, id).value.transport)
    ensures var req := Api.AlarmRequest(Api.Given(Some(start + 240 * MinuteMs)), Id(id), None, None, None);
      var setAlarm := Api.SetAlarm(h, start, req);
      var detected := OnSleepDetected(setAlarm.hub, start + 10 * MinuteMs, id);
      && detected.commands == [Delivery(Lookup(h.reg, id).value.transport, SetAlarmDelay(180 * MinuteMs))]
      && detected.hub.alarms[id].recommendedTime == Some(start + 190 * MinuteMs)
  {
    SetFourHourAlarm(h, start, id);
    var req := Api.AlarmRequest(Api.Given(Some(start + 240 * MinuteMs)), Id(id), None, None, None);
    DetectSleepTenMinutesIn(Api.SetAlarm(h, start, req).hub, start, id);
  }
}

=== FILE: scheduler.dfy ===
/** The alarm-cycle scheduler of the canonical revision: the latest 90-minute
    cycle boundary, counted from a reference start, that does not pass the
    requested wake time. */
module Scheduler {

  /** One sleep cycle: 90 minutes in milliseconds. */
  const CycleMs: int := 90 * 60 * 1000

  datatype AlarmCalc = AlarmCalc(optimalWakeTime: int, cyclesToTarget: int, recommendedTime: int)

  /** The instant `k` whole cycles after `start`. */
  function Boundary(start: int, k: int): int {
    start + k * CycleMs
  }

  /** `t` lies a positive whole number of cycles after `start`. */
  predicate OnCycleBoundary(start: int, t: int) {
    t > start && (t - start) % CycleMs == 0
  }

  /** Boundary `k >= 1` is the last one not after `target`. */
  ghost predicate IsLatestBoundary(start: int, target: int, k: int) {
    k >= 1 && Boundary(start, k) <= target < Boundary(start, k + 1)
  }

  /** `calculateOptimalAlarmTime(targetWakeTime, start)`. */
  function CalculateOptimalAlarmTime(target: int, start: int): (r: AlarmCalc)
    ensures r.optimalWakeTime == r.recommendedTime
    ensures r.cyclesToTarget >= 0 && r.recommendedTime <= target
    ensures r.cyclesToTarget == 0 <==> target < start + CycleMs
    ensures r.cyclesToTarget == 0 ==> r.recommendedTime == target
    ensures r.cyclesToTarget > 0 ==>
      IsLatestBoundary(start, target, r.cyclesToTarget) && r.recommendedTime == Boundary(start, r.cyclesToTarget)
  {
    if target <= start then AlarmCalc(target, 0, target)
    else
      var firstCycle := start + CycleMs;
      if firstCycle > target then AlarmCalc(target, 0, target)
      else
        var extraCycles := (target - firstCycle) / CycleMs;
        var optimal := firstCycle + extraCycles * CycleMs;
        AlarmCalc(optimal, extraCycles + 1, optimal)
  }

  /** The recommendation is the target itself or a cycle boundary from the start. */
  lemma RecommendationIsTargetOrBoundary(target: int, start: int)
    ensures var r := CalculateOptimalAlarmTime(target, start);
      r.recommendedTime == target || OnCycleBoundary(start, r.recommendedTime)
  {
    var r := CalculateOptimalAlarmTime(target, start);
    if r.cyclesToTarget > 0 {
      assert r.recommendedTime - start == r.cyclesToTarget * CycleMs;
    }
  }

  /** No boundary after the chosen one still fits before the target, and no
      boundary fits at all when no cycle was chosen. */
  lemma RecommendationIsLatest(target: int, start: int, k: int)
    requires k >= 1 && Boundary(start, k) <= target
    ensures k <= CalculateOptimalAlarmTime(target, start).cyclesToTarget
  {
  }

  /** A target 45 minutes after the start leaves no room for a full cycle. */
  lemma ScenarioTooShort(t: int)
    ensures CalculateOptimalAlarmTime(t + 45 * 60 * 1000, t) == AlarmCalc(t + 45 * 60 * 1000, 0, t + 45 * 60 * 1000)
  {
  }

  /** A target 100 minutes after the start fits exactly one cycle. */
  lemma ScenarioOneCycle(t: int)
    ensures CalculateOptimalAlarmTime(t + 100 * 60 * 1000, t) == AlarmCalc(t + 90 * 60 * 1000, 1, t + 90 * 60 * 1000)
  {
  }

  /** A target 200 minutes after the start fits two cycles. */
  lemma ScenarioTwoCycles(t: int)
    ensures CalculateOptimalAlarmTime(t + 200 * 60 * 1000, t) == AlarmCalc(t + 180 * 60 * 1000, 2, t + 180 * 60 * 1000)
  {
  }
}

=== FILE: wrappers.dfy ===
/** Optional values, used for JavaScript's `undefined`, for absent request
    fields and for computed fields that are still unset. */
module Wrappers {

  datatype Option<+T> = None | Some(value: T) {

    /** The wrapped value, or `default` when there is none. */
    function GetOr(default: T): T {
      match this
      case Some(v) => v
      case None => default
    }
  }
}
